=== FILE: README.md ===
# Bilingual course catalogue: a Dafny model of its deterministic core

The site is a small bilingual (English/Chinese) catalogue of training courses
with an admin area. Storage, authentication and file hosting all go through a
hosted backend. This project models the deterministic logic around those
calls and proves properties of it:

- the text utilities `truncate` and `slugify`;
- the image-upload checks, the storage path of an uploaded image, and the
  recovery of that path from a public URL;
- the translation lookup `t` with its fallbacks, the stored-language
  handling, and the bilingual field choice, category label, salary phrase
  translation and pathway chips of a course card;
- the course form (initial state, list editing, cleaning on submit) and the
  translation form (initial state, PATCH/POST request, response handling);
- the admin list filters, the publish toggle, the fallback labels, the
  missing-translation count, and the alert and empty-state choices;
- the query parameters of the public catalogue and its result line;
- the GET, POST and PATCH handlers of `/api/courses` and
  `/api/translations`, run over in-memory tables;
- the `isAdmin` and `getSession` decisions and the `/admin` request gate.

Tables are sequences of records (`Types.Course`, `Types.Translation`).
`admin_roles` is a map from user id to role. The session, and the errors of the
session and role lookups, are plain inputs (`Supabase.Auth`). HTTP statuses,
redirects, toasts and callbacks are returned as values. Request and response
bodies are `Json.Object` maps, because the handlers test JavaScript
truthiness (`||`, `!x`, `?? true`) and that depends on which keys are present.
Modules follow the source files:

| module | source |
|---|---|
| `Types` | src/types/index.ts |
| `Text`, `Seqs`, `Json`, `Query` | the JavaScript built-ins the code relies on |
| `Utils` | src/lib/utils.ts |
| `ImageUpload` | src/lib/imageUpload.ts |
| `LanguageContext` | src/contexts/LanguageContext.tsx |
| `CourseCard` | src/components/CourseCard.tsx |
| `CourseForm` | src/components/admin/CourseForm.tsx |
| `TranslationForm` | src/components/admin/TranslationForm.tsx |
| `AdminCourses` | app/admin/courses/page.tsx |
| `AdminTranslations` | app/admin/translations/page.tsx |
| `CoursesPage` | app/courses/page.tsx |
| `CoursesApi` | app/api/courses/route.ts |
| `TranslationsApi` | app/api/translations/route.ts |
| `Supabase` | src/lib/supabase.ts |
| `Middleware` | src/middleware.ts |
| `Flows` | client and server taken together |

Where the code and its comments disagree, the model follows the code. The doc
comment of `truncate` gives `"Long tex..."` for `truncate("Long text here", 10)`.
The code cuts the text to `"Long text "`, trims it to `"Long text"` and appends
`"..."`, so the result is `"Long text..."` (`Utils.TruncateExample`).

## Model

| member | source | states |
|---|---|---|
| Utils.Truncate | src/lib/utils.ts:46-49 | Text that fits is returned unchanged. Longer text ends in "...", and what precedes the "..." is the slice `text.slice(0, maxLength)` with surrounding white space trimmed, for every integer `maxLength`, including a negative one, which slices from the end. For `maxLength >= 0` the result is at most `maxLength + 3` long. |
| Utils.TruncateExample | src/lib/utils.ts:44-48 | `truncate("Long text here", 10)` is "Long text...", not the "Long tex..." its comment claims. |
| Utils.SliceEnd | src/lib/utils.ts:48 | The end index `slice(0, maxLength)` actually uses always lies within the text, and equals `maxLength` when that is in range. |
| Utils.Slugify | src/lib/utils.ts:59-66 | The result is a slug: only a–z, 0–9 and "-", no leading or trailing "-", no "--". Its letters and digits are exactly the input's ASCII letters and digits, lower-cased and in order. It is empty iff the input has no ASCII letter or digit. |
| Utils.SlugifyIdempotent | src/lib/utils.ts:59-66 | Slugifying a slug changes nothing: `slugify(slugify(s)) == slugify(s)`. |
| Utils.SlugifyFixesSlug | src/lib/utils.ts:59-66 | Every slug is a fixed point of `slugify`. |
| Utils.SlugifySpacedWords | src/lib/utils.ts:59-66 | Words of ASCII letters and digits separated by single spaces become the lower-cased words joined by single hyphens. |
| Utils.SlugifyExample | src/lib/utils.ts:57 | `slugify("Data Analytics Program")` is "data-analytics-program". |
| Utils.SlugifyWithoutAlnum | src/lib/utils.ts:63 | Text without any ASCII letter or digit slugifies to "". |
| Utils.SlugifyChineseTitle | src/lib/utils.ts:63 | A Chinese title slugifies to "". |
| Utils.CollapseNoDoubleHyphen | src/lib/utils.ts:64 | After runs of white space, "_" and "-" are collapsed, no "--" remains. |
| Utils.StripCollapsedIsSlug | src/lib/utils.ts:65 | Stripping the leading and trailing hyphens of collapsed text leaves a slug. |
| Utils.AlnumOfRemoveDisallowed | src/lib/utils.ts:63 | Removing the characters outside `\w`, `\s` and "-" loses no letter or digit. |
| Utils.AlnumOfCollapse | src/lib/utils.ts:64 | Collapsing separators loses no letter or digit. |
| Utils.AlnumOfStrip | src/lib/utils.ts:65 | Stripping hyphens at the ends loses no letter or digit. |
| Utils.AlnumOfTrim | src/lib/utils.ts:62 | `trim` loses no letter or digit. |
| Utils.AlnumOfLower | src/lib/utils.ts:61 | Lower-casing commutes with keeping only the letters and digits. |
| Utils.CollapseLoneSeparators | src/lib/utils.ts:64 | When no two separators are adjacent, collapsing turns each separator into exactly one hyphen. |
| ImageUpload.Validate | src/lib/imageUpload.ts:25-34 | Too large iff size > 5·1024·1024. Bad type iff the size is acceptable and the type is not image/jpeg, image/jpg, image/png or image/webp. Accepted iff both hold. The size check wins over the type check. |
| ImageUpload.SizeBoundary | src/lib/imageUpload.ts:25-28 | Exactly 5 MiB is accepted. One byte more is rejected for size, even with a bad type. |
| ImageUpload.PrepareUpload | src/lib/imageUpload.ts:24-38 | Fails with the size message, then the type message, in that order. Otherwise yields `courseSlug/unique.ext`. |
| ImageUpload.StoragePath | src/lib/imageUpload.ts:37-38 | The path is the course slug, "/", then the generated file name. |
| ImageUpload.FileName | src/lib/imageUpload.ts:4-9 | The generated name is the unique part, ".", then the extension, and its own extension is the original file's. |
| ImageUpload.Extension | src/lib/imageUpload.ts:7 | The extension has no ".", is a suffix of the name, follows the last "." when there is one, and is the whole name when there is none. |
| ImageUpload.ExtensionAfterLastDot | src/lib/imageUpload.ts:7 | For any stem, `stem + "." + ext` with a dot-free `ext` has extension `ext`. |
| ImageUpload.ExtensionExamples | src/lib/imageUpload.ts:7 | "photo.jpg" gives "jpg", "archive.tar.gz" gives "gz", "README" gives "README". |
| ImageUpload.SplitJoin | src/lib/imageUpload.ts:7 | `split` followed by `join` with the same separator gives back the original text. |
| ImageUpload.PiecesLackSeparator | src/lib/imageUpload.ts:7 | No piece of a `split` contains the separator. |
| ImageUpload.LastPieceFollowsSeparator | src/lib/imageUpload.ts:7 | When the separator occurs, the text ends with it followed by the last piece. |
| ImageUpload.SplitWithoutSeparator | src/lib/imageUpload.ts:7 | `split` yields the one-element list of the whole text iff the separator does not occur. |
| ImageUpload.MatchFrom | src/lib/imageUpload.ts:82 | The regex search from position i succeeds iff a match starts at or after i, and then yields the tail after that match's marker. |
| ImageUpload.ExtractStoragePath | src/lib/imageUpload.ts:79-87 | A path is returned iff "course-images/" occurs followed by a non-empty tail without line terminators. The path is the tail after the leftmost such occurrence. |
| ImageUpload.ExtractAfterFirstMarker | src/lib/imageUpload.ts:82-83 | For newline-free URLs, the text after the first "course-images/" is returned when it is non-empty, and null when it is empty. |
| ImageUpload.ExtractWithoutMarker | src/lib/imageUpload.ts:82-86 | A URL without "course-images/" yields null. |
| ImageUpload.ExtractRoundTrip | src/lib/imageUpload.ts:79-83 | For a prefix without the marker and a non-empty newline-free path p, extracting from `prefix + "course-images/" + p` gives back p. |
| ImageUpload.UploadedPathRecovered | src/lib/imageUpload.ts:79-83 | The path an upload is stored under comes back out of its public URL. This assumes a marker-free URL prefix and a slug, file name and unique part without line terminators. |
| LanguageContext.T | src/contexts/LanguageContext.tsx:78-88 | A non-empty table entry for the current language is returned. The result is always the key, the fallback or a table entry, and it is never empty for a non-empty key. |
| LanguageContext.FallbackChain | src/contexts/LanguageContext.tsx:85 | Without an entry, a non-empty fallback is returned, and otherwise the key itself. |
| LanguageContext.BuiltInKeysNeverFallBack | src/contexts/LanguageContext.tsx:21-32 | Every key of the built-in table has non-empty text in both languages, so `t` never falls back for it. |
| LanguageContext.Restore | src/contexts/LanguageContext.tsx:48-59 | The stored value "zh" selects Chinese. Any value other than "en" or "zh", or none, leaves the initial English. |
| LanguageContext.Mount | src/contexts/LanguageContext.tsx:52-62 | Mounting keeps storage as it is and takes the language from it. |
| LanguageContext.SetLanguage | src/contexts/LanguageContext.tsx:65-70 | After `setLanguage(l)` the language is l and storage holds l's code. |
| LanguageContext.SetLanguageSurvivesReload | src/contexts/LanguageContext.tsx:57-68 | A language that was set is restored after a reload. |
| LanguageContext.RestoreAdoptsOnlyCodes | src/contexts/LanguageContext.tsx:57-59 | A stored string is adopted exactly when it is one of the two language codes. |
| CourseCard.Pick | src/components/CourseCard.tsx:23-29 | English shows the English text. Chinese shows either the English text or the Chinese one, and the result is empty only when the English text is. |
| CourseCard.Title | src/components/CourseCard.tsx:23-24 | In Chinese a non-null, non-empty title_zh is shown; otherwise, and always in English, title_en. |
| CourseCard.Description | src/components/CourseCard.tsx:26-29 | In Chinese a non-null, non-empty description_zh is shown; otherwise, and always in English, description_en. |
| CourseCard.PickChineseIff | src/components/CourseCard.tsx:23-29 | In Chinese, the Chinese text is shown iff it is non-null and non-empty. |
| CourseCard.CareerPathways | src/components/CourseCard.tsx:31-34 | In Chinese, the Chinese list is used whenever it is non-null, even when empty. Otherwise the English list is used. |
| CourseCard.EmptyChinesePathwaysHideSection | src/components/CourseCard.tsx:31-34 | In Chinese, a course whose Chinese pathway list is empty shows no pathway section, even when the English list is full. |
| CourseCard.FormatCategory | src/components/CourseCard.tsx:37-50 | A null or empty category gives null. A known key gives its label in the current language. Any other value is shown raw. |
| CourseCard.KnownCategories | src/components/CourseCard.tsx:39-48 | The known keys are exactly the eight listed. |
| CourseCard.TranslateSalaryRange | src/components/CourseCard.tsx:53-54 | An empty salary text is returned unchanged. |
| CourseCard.EnglishSalaryUnchanged | src/components/CourseCard.tsx:58-63 | In English, text in which every case-insensitive occurrence of the two phrases is already lower-case comes back unchanged. |
| CourseCard.SalaryWithoutPhrasesUnchanged | src/components/CourseCard.tsx:53-66 | Text containing neither phrase in any case is unchanged in either language. |
| CourseCard.CapitalisedPhraseTranslated | src/components/CourseCard.tsx:58 | In Chinese, "Entry-level" becomes "入门级": the match ignores case. |
| CourseCard.EntryLevelPhraseTranslated | src/components/CourseCard.tsx:53-66 | Take a salary text `a + v + b` where `v` is "entry-level" in any case. Suppose no phrase match starts in `a`, `a` holds no "w" or "W", and `b` holds neither phrase. Then the phrase becomes "entry-level" in English or "入门级" in Chinese, and `a` and `b` are kept as written. |
| Text.ReplaceAllIgnoringCase | src/components/CourseCard.tsx:58-63 | A global case-insensitive replace leaves text without a match unchanged. |
| Text.ReplaceAfterMatchFreePrefix | src/components/CourseCard.tsx:58-63 | Text before the first place a match starts is copied unchanged, and replacing continues on the rest. |
| Text.ReplaceAtMatch | src/components/CourseCard.tsx:58-63 | A match at the start, in any case, becomes the replacement, and replacing continues after it. |
| Text.ReplaceLeftmostMatch | src/components/CourseCard.tsx:58-63 | For `a + v + b` where no match starts in `a` and `v` equals the pattern ignoring case, the result is `a`, the replacement, then `b` replaced. |
| Text.NoMatchBeforeFirstChar | src/components/CourseCard.tsx:58-63 | No match starts at a character that differs, ignoring case, from the pattern's first. |
| Text.ReplaceBySelfKeepsExactText | src/components/CourseCard.tsx:58-63 | Replacing a phrase by itself changes nothing when every match is spelled exactly like the phrase. |
| CourseCard.PathwayChips | src/components/CourseCard.tsx:131-143 | At most the first two pathways become chips. A "+N" chip appears iff there are more than two, and the chips plus N account for every pathway. |
| CourseCard.View | src/components/CourseCard.tsx:95-124 | The category badge shows iff the category is non-empty, the salary iff the salary text is non-empty, and the pathway section iff the chosen list is non-empty. |
| CourseCard.EnglishCardShowsEnglish | src/components/CourseCard.tsx:23-34 | An English card shows the English title and description, and pathways iff the English list is non-empty. |
| CourseForm.Initial | src/components/admin/CourseForm.tsx:19-34 | A new form has all eight texts empty, every list `[""]`, category "business" and published true. An existing course keeps its slug, English texts, salary, English lists and is_published (even false). A null Chinese text becomes "", a null Chinese list `[""]`, and an empty category "business". |
| CourseForm.UnchangedEditSavesCourse | src/components/admin/CourseForm.tsx:19-34 | Opening a course and saving it unedited writes back exactly the row read, updating the course's id. This holds when every Chinese column is set, no list item is blank and the category is non-empty. |
| CourseForm.UnsetChineseTitleSavedEmpty | src/components/admin/CourseForm.tsx:22 | A course whose Chinese title is null is saved back, unedited, with title_zh "" instead of null. |
| CourseForm.NewFormListsNonEmpty | src/components/admin/CourseForm.tsx:25-28 | Every list of a new form has an item. |
| CourseForm.FormData.WithList | src/components/admin/CourseForm.tsx:44-47 | Writing one list changes that list and no other field. |
| CourseForm.AddItem | src/components/admin/CourseForm.tsx:37-48 | Appends one "" to the chosen list and changes no other field. |
| CourseForm.ReplaceAt | src/components/admin/CourseForm.tsx:61 | Mapping the index to the new value is a point update, and an out-of-range index changes nothing. |
| CourseForm.UpdateItem | src/components/admin/CourseForm.tsx:50-63 | Keeps the length, replaces only the element at the index, and changes no other field. An out-of-range index changes nothing. |
| CourseForm.DropIndex | src/components/admin/CourseForm.tsx:75 | Filtering out an index removes exactly that element and keeps the rest in order. An out-of-range index changes nothing. |
| CourseForm.RemoveItem | src/components/admin/CourseForm.tsx:65-77 | Deletes exactly the element at the index from the chosen list and changes no other field. An out-of-range index changes the form not at all. |
| CourseForm.CanRemove | src/components/admin/CourseForm.tsx:314-318 | The remove button shows iff the list has at least two items, so any removal it offers leaves an item. |
| CourseForm.ApplyEdit | src/components/admin/CourseForm.tsx:37-77 | An add, update or remove through the form changes only the list it names. |
| CourseForm.ApplyEdits | src/components/admin/CourseForm.tsx:37-77 | A run of edits leaves every non-list field as it was, and every list no edit names as it was. |
| CourseForm.EditsKeepListsNonEmpty | src/components/admin/CourseForm.tsx:314-318 | Each list's remove button is offered only while that list holds more than one item (also at lines 349, 408 and 443). So no sequence of edits empties a list that started non-empty, whatever the other lists hold, including an opened course with an empty list. |
| CourseForm.CleanList | src/components/admin/CourseForm.tsx:87 | Keeps exactly the items whose trimmed text is non-empty, in their original order. |
| CourseForm.CleanListIdempotent | src/components/admin/CourseForm.tsx:85-95 | Cleaning a cleaned list changes nothing. |
| CourseForm.CleanListKeepsAllIff | src/components/admin/CourseForm.tsx:85-95 | Cleaning keeps the whole list iff no item is blank. |
| CourseForm.CleanListMultiplicity | src/components/admin/CourseForm.tsx:87 | Each non-blank item is kept exactly as many times as the list holds it, and no blank item is kept. |
| CourseForm.ArrayOrNull | src/components/admin/CourseForm.tsx:88-89 | `filter(...) \|\| null` is always the array: the `null` never fires. |
| CourseForm.CleanData | src/components/admin/CourseForm.tsx:85-95 | Every column is sent. Scalar columns carry the form's values. Each list column carries its cleaned list, and the Chinese lists are arrays, possibly empty, never null. |
| CourseForm.Save | src/components/admin/CourseForm.tsx:97-110 | Editing updates the row with the course's id. Creating inserts. Either way the cleaned data is written. |
| TranslationForm.Initial | src/components/admin/TranslationForm.tsx:22-27 | A new form is empty with category "common". An existing translation keeps its key, English value and non-empty category. A null Chinese value becomes "", and a null or empty category becomes "common". |
| TranslationForm.UnchangedEditSendsStoredValues | src/components/admin/TranslationForm.tsx:22-43 | Opening a translation whose Chinese value and category are set and saving it unedited PATCHes its id with exactly the key, value_en, value_zh and category it was read with. |
| TranslationForm.FormObject | src/components/admin/TranslationForm.tsx:22-27 | The body holds exactly key, value_en, value_zh and category, as strings. |
| TranslationForm.BuildRequest | src/components/admin/TranslationForm.tsx:34-57 | Editing sends PATCH with the translation's id added to the form fields. Creating sends POST with the form fields and no id. |
| TranslationForm.ErrorMessage | src/components/admin/TranslationForm.tsx:47-49 | The server's non-empty `error` text is used, otherwise the default, so the message is never empty. |
| TranslationForm.ToastText | src/components/admin/TranslationForm.tsx:71-73 | The toast shows the error's message when it has one. |
| TranslationForm.AfterResponse | src/components/admin/TranslationForm.tsx:62-73 | On success the toast "Translation updated successfully" (editing) or "Translation created successfully" (creating), then onSuccess, then onClose. On failure only an error toast, so neither callback runs. |
| TranslationForm.FailureToastNamesTheCause | src/components/admin/TranslationForm.tsx:47-73 | The failure toast shows the server's error text, or else "Failed to update translation" or "Failed to create translation"; the generic "Failed to save translation" never appears. |
| AdminCourses.FilterCourses | app/admin/courses/page.tsx:80-84 | A course is kept iff the lower-cased term occurs in the lower-cased title_en or in a non-null title_zh. Kept courses stay in order, so the result is a subsequence. |
| AdminCourses.EmptyTermKeepsAll | app/admin/courses/page.tsx:80-84 | The empty term keeps every course. |
| AdminCourses.TitleOrderTotal | app/admin/courses/page.tsx:28 | Ordering by title_en compares any two courses. |
| AdminCourses.AdminList | app/admin/courses/page.tsx:24-28 | The admin list is the whole table, drafts included, in title_en order. |
| AdminCourses.AdminListShowsDrafts | app/admin/courses/page.tsx:24-28 | Every course of the table, published or not, is listed. |
| AdminCourses.TogglePublished | app/admin/courses/page.tsx:40-46 | The rows with the id get the negation of the shown status. No other row and no other field changes. |
| AdminCourses.ToggleTwiceRestores | app/admin/courses/page.tsx:44 | Toggling twice restores the table. |
| AdminCourses.ToggleToast | app/admin/courses/page.tsx:49 | The toast says "Course published" iff the course was a draft, and "Course unpublished" when it was published. |
| AdminCourses.StatusLabel | app/admin/courses/page.tsx:184 | "Published" iff published, "Draft" iff not. |
| AdminCourses.CategoryLabel | app/admin/courses/page.tsx:171 | An empty category shows "Uncategorized", any other is shown as is. |
| AdminCourses.SalaryLabel | app/admin/courses/page.tsx:174 | An empty salary shows "N/A", any other is shown as is. |
| AdminCourses.OrPlaceholder | app/admin/courses/page.tsx:171-174 | `text \|\| placeholder` is never empty and keeps non-empty text. |
| AdminTranslations.FilterTranslations | app/admin/translations/page.tsx:73-78 | A translation is kept iff the lower-cased term occurs in its key, value_en or non-null value_zh. The result is a subsequence. |
| AdminTranslations.EmptyTermKeepsAll | app/admin/translations/page.tsx:73-78 | The empty term keeps every translation. |
| AdminTranslations.MissingCount | app/admin/translations/page.tsx:80 | Counts the rows whose value_zh is null or "": it is the length of the list of such rows. It is at most the list length, zero iff none lacks Chinese, and the full length iff all do. |
| AdminTranslations.MissingCountAppend | app/admin/translations/page.tsx:80 | The count of an empty list is 0. Adding a row adds 1 iff the row lacks Chinese text. |
| AdminTranslations.FetchParams | app/admin/translations/page.tsx:35-41 | category is sent iff it is not "all". `missingOnly=true` is sent iff the toggle is on. |
| AdminTranslations.AlertNoun | app/admin/translations/page.tsx:113 | The noun is "translations" iff the count is not 1. |
| AdminTranslations.ShowAlert | app/admin/translations/page.tsx:104 | The alert shows iff the missing count is positive and the missing-only toggle is off. |
| AdminTranslations.AlertIffMissing | app/admin/translations/page.tsx:104 | The alert shows iff the missing-only toggle is off and some listed translation lacks Chinese text. |
| AdminTranslations.AlertText | app/admin/translations/page.tsx:113-114 | The sentence starts with the count in decimal, a space and the noun, and ends with " need Chinese values.". The letter before that tail is "s" iff the count is not 1. |
| AdminTranslations.EmptyMessage | app/admin/translations/page.tsx:175-179 | A search term selects the no-match message, then missing-only selects its message, and otherwise "No translations yet". |
| AdminTranslations.EmptyState | app/admin/translations/page.tsx:170-179 | The empty state shows iff no translation matches the term, and then with that message. |
| AdminTranslations.NoTermEmptyStateIffNoRows | app/admin/translations/page.tsx:170-179 | Without a term, the empty state shows iff there are no rows. |
| CoursesPage.CategoryValues | app/courses/page.tsx:17-23 | The choices are "all", business, healthcare, technology, trades, in that order. |
| CoursesPage.FetchParams | app/courses/page.tsx:37-43 | category is sent iff it is not "all". search is sent iff the term is non-blank after trimming, and the untrimmed term is sent. No slug is sent. |
| CoursesPage.AfterFetch | app/courses/page.tsx:45-52 | A failed response leaves the shown list unchanged. A successful one shows its courses, or none. |
| CoursesPage.FetchShowsCatalogue | app/courses/page.tsx:34-52 | After a successful fetch with the page's own query, the page shows exactly the published courses of the chosen category (any category for "all") that match the typed term, newest first. |
| CoursesPage.ResultsPluralIff | app/courses/page.tsx:117 | The English results line ends in "s" iff the count is not 1. |
| CoursesPage.ResultsText | app/courses/page.tsx:115-118 | In English the line starts "Showing ", the decimal count and " program", and ends in "s" iff the count is not 1. In Chinese it starts "显示 " and the count, and ends with " 个课程". |
| CoursesPage.ResultsStateCount | app/courses/page.tsx:115-118 | The results line contains the count in decimal. |
| Query.Get | app/api/courses/route.ts:10-13 | A parameter is absent iff no pair has its name, and otherwise its value is one sent under that name. |
| Query.GetAfterAppend | app/courses/page.tsx:37-43 | Appending a pair makes the new name readable and leaves other names as they were. |
| CoursesApi.PublishedWithSlug | app/api/courses/route.ts:19-24 | The slug query selects exactly the published rows with that slug. |
| CoursesApi.BySlug | app/api/courses/route.ts:18-35 | Returns the published course with that slug when exactly one exists, and 404 otherwise. |
| CoursesApi.List | app/api/courses/route.ts:37-69 | Returns exactly the published rows passing the category and search filters, each as often as in the table, newest first, with count equal to the number returned. |
| CoursesApi.MatchesSearch | app/api/courses/route.ts:47-51 | The empty term matches every course. A term found, ignoring case, in the English title or description, or in a non-null Chinese title or description, matches. When both Chinese columns are null, those two are the only way to match. |
| CoursesApi.HandleGet | app/api/courses/route.ts:17-69 | A non-empty slug runs only the slug branch: it answers "not found" iff the number of published rows with that slug is not exactly one, and otherwise returns that published row. Otherwise the filtered listing is returned. |
| CoursesApi.ListingIsPermutation | app/api/courses/route.ts:38-58 | The listing is a reordering of the filtered table. |
| CoursesApi.DraftsStayHidden | app/api/courses/route.ts:23-38 | No unpublished course is ever returned by GET. |
| CoursesApi.NewRow | app/api/courses/route.ts:126-143 | slug and title_en are copied. is_published defaults to true only when absent, and an explicit value is kept. |
| CoursesApi.FalsyFieldsDefault | app/api/courses/route.ts:130-140 | A falsy optional field becomes null, or [] for the English lists. |
| CoursesApi.TruthyFieldsKept | app/api/courses/route.ts:128-140 | A truthy field is inserted as sent. |
| CoursesApi.ExplicitDraftKept | app/api/courses/route.ts:141-142 | An explicit `is_published: false` is kept. |
| CoursesApi.HandlePost | app/api/courses/route.ts:91-156 | No session or a session error gives 401. Then no admin_roles row gives 403. Then a falsy title_en or slug gives 400. Otherwise the defaulted row is created (201). |
| CoursesApi.PostChecksSessionFirst | app/api/courses/route.ts:91-96 | Without a session the answer is 401 whatever the body. |
| TranslationsApi.HandleGet | app/api/translations/route.ts:7-24 | Returns exactly the rows passing the category filter and, iff missingOnly is exactly "true", having a null value_zh, newest first. |
| TranslationsApi.MissingOnlySkipsEmptyChinese | app/api/translations/route.ts:22-24 | A row whose value_zh is "" is not returned by the missing-only filter. |
| TranslationsApi.HandlePost | app/api/translations/route.ts:49-83 | No session gives 401. Then no admin_roles row gives 403. Then a falsy key or value_en gives 400. Otherwise the body is inserted unchanged. |
| TranslationsApi.HandlePatch | app/api/translations/route.ts:99-120 | No session gives 401, then a falsy id gives 400. Otherwise every field but id becomes the update for the row with that id. |
| TranslationsApi.PatchIgnoresRoles | app/api/translations/route.ts:99-115 | PATCH performs no admin-role check: the roles table cannot change its answer. |
| TranslationsApi.ApplyUpdate | app/api/translations/route.ts:117-120 | Rows with the id receive every update field and keep their other fields. Other rows are untouched. |
| TranslationsApi.PatchKeepsRowIds | app/api/translations/route.ts:108-120 | The update leaves every row's id as it was. |
| Supabase.GetSession | src/lib/supabase.ts:29-36 | A reported error gives null, otherwise the session. |
| Supabase.RoleRow | src/lib/supabase.ts:56-62 | The lookup yields a role iff it does not error and the user has a row. |
| Supabase.IsAdmin | src/lib/supabase.ts:52-64 | True iff there is a session with a non-empty user id whose row holds "admin" or "editor". |
| Supabase.LookupErrorDenies | src/lib/supabase.ts:62 | A failed role lookup denies. |
| Supabase.OtherRolesDenied | src/lib/supabase.ts:63 | A row with any other role denies. |
| Middleware.Decide | src/middleware.ts:57-85 | Unguarded paths pass. A guarded request without a session is redirected to /admin/login. One without an admin_roles row is signed out and redirected. Any row lets it pass. |
| Middleware.LoginPageNeverRedirects | src/middleware.ts:58-68 | The login page is not guarded, so the redirect cannot loop. |
| Middleware.GateExamples | src/middleware.ts:58-61 | "/admin/login-x" and "/courses" are not guarded, "/admin/dashboard" is. |
| Middleware.AdminsPassTheGate | src/middleware.ts:72-82 | Whoever `isAdmin` accepts passes the gate. |
| Middleware.GateAdmitsAnyRole | src/middleware.ts:72-82 | A user with a row of any other role passes the gate though `isAdmin` refuses them. |
| Json.FieldOr | app/api/courses/route.ts:130 | `body.x \|\| d` is a truthy value of x, or else d. |
| Json.FieldOrNullIsTruthyOrNull | app/api/courses/route.ts:130-139 | `body.x \|\| null` is null iff x is falsy. |
| Json.Without | app/api/translations/route.ts:108 | `{id, ...rest}` gives every field but id, with its value. |
| Flows.CatalogueQuery | app/courses/page.tsx:37-43 | The catalogue page's query makes GET list exactly the published courses of the chosen category matching a non-blank term. |
| Flows.AdminTranslationQuery | app/admin/translations/page.tsx:35-41 | The admin page's query makes GET return exactly the rows of the chosen category, missing ones only when toggled. |
| Flows.BlankChineseCountedButNotListed | app/admin/translations/page.tsx:80 | A row saved with value_zh "" counts as missing in the alert but is not returned by the missing-only view. |
| Flows.FormSendsEmptyChinese | src/components/admin/TranslationForm.tsx:25 | A translation form left without Chinese sends value_zh "" rather than null. |
| Flows.EditedTranslationPatchesItsRow | src/components/admin/TranslationForm.tsx:34-43 | An edit's PATCH body reaches the handler with the translation's id and the form's fields as the update. |
| Flows.NewTranslationAcceptedIffFilled | src/components/admin/TranslationForm.tsx:52-57 | An admin's new translation is created iff its key and English value are non-empty. |

## Left out

- Backend calls: client construction, auth calls, storage upload, removal and public URLs, and the database calls themselves are foreign library and network calls. Their results are inputs (`Supabase.Auth`, the tables) and their errors (the 500 paths of the routes, a failed insert or update in the forms) are not modelled.
- `generateFileName`'s `Date.now()` and `Math.random()` part is nondeterministic; it is the parameter `unique` of `ImageUpload.StoragePath`.
- The upload and delete bodies of src/lib/imageUpload.ts, `getImageUrl`, `deleteCourseImage`, and `cn`, `formatCurrency` and `formatDate` of src/lib/utils.ts are library calls or locale formatting.
- Browser and React plumbing: localStorage (modelled as the `stored` field of `LanguageContext.State`), `fetch`, React state and effects, the 500 ms debounce of the catalogue search, toasts and `confirm` dialogs as side effects, and router navigation. They are returned as values instead.
- Query strings are modelled as name/value lists; URL encoding is not modelled.
- Response bodies that fail to parse as JSON are not modelled.
- JSON numbers are modelled as integers; no handler inspects a number.
- The middleware's `matcher` configuration is not modelled: `Middleware.Decide` applies the path test itself to every path.
- The gate repeated in app/admin/layout.tsx (which redirects to "/admin-login") and the login page's sequencing of auth calls are not part of this model.
- Pure markup components and pages, and the seed scripts, are not part of this model.
- The category choices of the translations page's drop-down (app/admin/translations/page.tsx:20-26) are markup; only the value "all" matters to the query, and `AdminTranslations.FetchParams` states that.
- PATCH status codes when no row or several rows carry the id are not modelled; `TranslationsApi.ApplyUpdate` updates every matching row.
- Database column constraints (not-null, unique slug and key) are not checked on insert.
- Utils.Slugify: `toLowerCase` is modelled on ASCII letters only, so characters such as the Kelvin sign or "İ", which JavaScript lowers to ASCII letters, are treated as removable non-ASCII text.
- Text.ContainsIgnoringCase: case is ignored for ASCII letters only, and search terms are taken literally; the `%` and `_` wildcards of `ilike` are not modelled.
- CoursesApi.MatchesSearch: search terms containing ",", "(" or ")", which change the meaning of the `or` filter string, are treated as plain text, and so is "*", which the database's filter syntax reads as the wildcard "%" in an `ilike` pattern.
- AdminCourses.AdminList: title order is code-point order; the database collation may order letters differently.
- CoursesApi.List: rows with equal created_at are returned in table order; the database leaves their order open.
- TranslationForm.ErrorMessage: a non-string `error` value in a response is treated like a missing one.
- CourseCard.TranslateSalaryRange: its contract states only the empty case. The replacements are stated by `CourseCard.EnglishSalaryUnchanged`, `CourseCard.SalaryWithoutPhrasesUnchanged` and `CourseCard.EntryLevelPhraseTranslated` for one "entry-level" phrase. Texts holding several phrases, or "with experience", are covered only by the general laws in `Text`.
- Utils.Truncate: lengths and slice positions count characters (code points). JavaScript counts UTF-16 code units, so text outside the Basic Multilingual Plane, such as emoji, is cut at different places. `maxLength` is an integer; a fractional `maxLength`, which `slice` truncates, is not modelled.

=== FILE: admin_courses.dfy ===
/**
 The admin course list: every course, published or not, ordered by English
 title; the search box that narrows it; the publish toggle; and the labels
 each row shows.
 */
module AdminCourses {
  import opened Types
  import opened Text
  import Seqs

  /** A course passes the search when the term occurs, ignoring case, in its English title or its Chinese title. */
  predicate MatchesSearch(c: Course, term: string) {
    || ContainsIgnoringCase(c.titleEn, term)
    || (c.titleZh.Some? && ContainsIgnoringCase(c.titleZh.value, term))
  }

  /** `filteredCourses`: the courses passing the search, in list order. */
  function FilterCourses(courses: seq<Course>, term: string): (r: seq<Course>)
    ensures forall c :: c in r <==> c in courses && MatchesSearch(c, term)
    ensures Seqs.IsSubsequence(r, courses)
  {
    Seqs.Filter(courses, c => MatchesSearch(c, term))
  }

  /** The empty search term keeps every course. */
  lemma EmptyTermKeepsAll(courses: seq<Course>)
    ensures FilterCourses(courses, "") == courses
  {
    forall i | 0 <= i < |courses|
      ensures MatchesSearch(courses[i], "")
    {
      ContainsEmpty(Lower(courses[i].titleEn));
    }
    Seqs.FilterKeepsAllIff(courses, c => MatchesSearch(c, ""));
  }

  /** The admin list's order: ascending English title. */
  predicate TitleLe(a: Course, b: Course) {
    LexLe(a.titleEn, b.titleEn)
  }

  lemma TitleOrderTotal()
    ensures Seqs.Total(TitleLe)
  {
    forall a: Course, b: Course
      ensures TitleLe(a, b) || TitleLe(b, a)
    {
      LexLeTotal(a.titleEn, b.titleEn);
    }
  }

  /** The list the page loads: every row of the table, unpublished ones included, ordered by English title. */
  function AdminList(table: seq<Course>): (r: seq<Course>)
    ensures multiset(r) == multiset(table)
    ensures Seqs.SortedBy(r, TitleLe)
  {
    TitleOrderTotal();
    Seqs.SortBy(table, TitleLe)
  }

  /** Unpublished courses are listed too. */
  lemma AdminListShowsDrafts(table: seq<Course>, c: Course)
    requires c in table
    ensures c in AdminList(table)
  {
    assert c in multiset(table);
  }

  /** `togglePublished(id, current)`: the rows with that id get `is_published = !current`; the others are untouched. */
  function TogglePublished(table: seq<Course>, id: string, current: bool): (r: seq<Course>)
    ensures |r| == |table|
    ensures forall i :: 0 <= i < |table| && table[i].id != id ==> r[i] == table[i]
    ensures forall i :: 0 <= i < |table| && table[i].id == id ==> r[i].isPublished != current
    ensures forall i :: 0 <= i < |table| ==> r[i] == table[i].(isPublished := r[i].isPublished)
  {
    seq(|table|, i requires 0 <= i < |table| => if table[i].id == id then table[i].(isPublished := !current) else table[i])
  }

  /** The rows with this id all show status `current`, as the row the toggle was clicked on does. */
  predicate ShowsStatus(table: seq<Course>, id: string, current: bool) {
    forall i :: 0 <= i < |table| && table[i].id == id ==> table[i].isPublished == current
  }

  /** Toggling, then toggling the refreshed row again, restores the table. */
  lemma ToggleTwiceRestores(table: seq<Course>, id: string, current: bool)
    requires ShowsStatus(table, id, current)
    ensures ShowsStatus(TogglePublished(table, id, current), id, !current)
    ensures TogglePublished(TogglePublished(table, id, current), id, !current) == table
  {
  }

  /** The success toast after a toggle. */
  function ToggleToast(current: bool): (text: string)
    ensures text == "Course published" <==> !current
    ensures current ==> text == "Course unpublished"
  {
    "Course " + (if !current then "published" else "unpublished")
  }

  /** The status badge. */
  function StatusLabel(c: Course): (shown: string)
    ensures shown == "Published" <==> c.isPublished
    ensures shown == "Draft" <==> !c.isPublished
  {
    if c.isPublished then "Published" else "Draft"
  }

  /** `text || placeholder`. */
  function OrPlaceholder(text: string, placeholder: string): (r: string)
    requires placeholder != ""
    ensures r != ""
    ensures text != "" ==> r == text
  {
    if text != "" then text else placeholder
  }

  /** The category cell: the category, or "Uncategorized" when it is empty. */
  function CategoryLabel(c: Course): (shown: string)
    ensures shown != ""
    ensures c.category != "" ==> shown == c.category
    ensures c.category == "" ==> shown == "Uncategorized"
  {
    OrPlaceholder(c.category, "Uncategorized")
  }

  /** The salary cell: the salary range, or "N/A" when it is empty. */
  function SalaryLabel(c: Course): (shown: string)
    ensures shown != ""
    ensures c.salaryRange != "" ==> shown == c.salaryRange
    ensures c.salaryRange == "" ==> shown == "N/A"
  {
    OrPlaceholder(c.salaryRange, "N/A")
  }
}

=== FILE: admin_translations.dfy ===
/**
 The admin translation list: the search box, the count of translations still
 lacking Chinese text, the query it loads the list with, the alert and the
 message shown when nothing is listed.
 */
module AdminTranslations {
  import opened Types
  import opened Text
  import opened Query
  import Seqs

  /** A translation passes the search when the term occurs, ignoring case, in its key, its English value or its Chinese value. */
  predicate MatchesSearch(t: Translation, term: string) {
    || ContainsIgnoringCase(t.key, term)
    || ContainsIgnoringCase(t.valueEn, term)
    || (t.valueZh.Some? && ContainsIgnoringCase(t.valueZh.value, term))
  }

  /** `filteredTranslations`: the translations passing the search, in list order. */
  function FilterTranslations(ts: seq<Translation>, term: string): (r: seq<Translation>)
    ensures forall t :: t in r <==> t in ts && MatchesSearch(t, term)
    ensures Seqs.IsSubsequence(r, ts)
  {
    Seqs.Filter(ts, t => MatchesSearch(t, term))
  }

  /** The empty search term keeps every translation. */
  lemma EmptyTermKeepsAll(ts: seq<Translation>)
    ensures FilterTranslations(ts, "") == ts
  {
    forall i | 0 <= i < |ts|
      ensures MatchesSearch(ts[i], "")
    {
      ContainsEmpty(Lower(ts[i].key));
    }
    Seqs.FilterKeepsAllIff(ts, t => MatchesSearch(t, ""));
  }

  /** `!t.value_zh`: the Chinese value is null or empty. */
  predicate LacksChinese(t: Translation) {
    t.valueZh == None || t.valueZh == Some("")
  }

  /** `missingCount`: how many listed translations lack Chinese text. */
  function MissingCount(ts: seq<Translation>): (n: nat)
    ensures n <= |ts|
    ensures n == 0 <==> forall i :: 0 <= i < |ts| ==> !LacksChinese(ts[i])
    ensures n == |ts| <==> forall i :: 0 <= i < |ts| ==> LacksChinese(ts[i])
    ensures n == |Seqs.Filter(ts, LacksChinese)|
  {
    Seqs.CountWhere(ts, LacksChinese)
  }

  /** The count starts at zero and goes up by one for each listed translation that lacks Chinese text. */
  lemma MissingCountAppend(ts: seq<Translation>, t: Translation)
    ensures MissingCount([]) == 0
    ensures MissingCount(ts + [t]) == MissingCount(ts) + (if LacksChinese(t) then 1 else 0)
  {
    Seqs.CountWhereAppend(ts, t, LacksChinese);
  }

  /** The query the list is loaded with: `category` unless "all" is chosen, `missingOnly=true` when the toggle is on. */
  function FetchParams(category: string, missingOnly: bool): (ps: Params)
    ensures Get(ps, "category") == if category != "all" then Some(category) else None
    ensures Get(ps, "missingOnly") == if missingOnly then Some("true") else None
  {
    var withCategory := AppendIf([], category != "all", "category", category);
    GetAfterAppend(withCategory, "missingOnly", "true", "category");
    GetAfterAppend(withCategory, "missingOnly", "true", "missingOnly");
    AppendIf(withCategory, missingOnly, "missingOnly", "true")
  }

  /** The missing-translations alert shows when some translation lacks Chinese text and the toggle is off. */
  function ShowAlert(missing: nat, missingOnly: bool): (b: bool)
    ensures b ==> missing > 0 && !missingOnly
    ensures missing > 0 && !missingOnly ==> b
  {
    missing > 0 && !missingOnly
  }

  /** The alert's noun: plural unless the count is exactly one. */
  function AlertNoun(n: nat): (noun: string)
    ensures noun == "translation" <==> n == 1
    ensures noun == "translations" <==> n != 1
  {
    "translation" + (if n != 1 then "s" else "")
  }

  /** The alert shows exactly when the toggle is off and some listed translation lacks Chinese text. */
  lemma AlertIffMissing(ts: seq<Translation>, missingOnly: bool)
    ensures ShowAlert(MissingCount(ts), missingOnly) <==> !missingOnly && exists t :: t in ts && LacksChinese(t)
  {
    if exists t :: t in ts && LacksChinese(t) {
      var t :| t in ts && LacksChinese(t);
      var i :| 0 <= i < |ts| && ts[i] == t;
    }
  }

  /** The sentence after the count. */
  const AlertTail: string := " need Chinese values."

  /**
   The alert's sentence, e.g. "3 translations need Chinese values.": the count
   in decimal, a space, the noun, whose plural "s" appears exactly when the
   count is not one, and the fixed tail.
   */
  function AlertText(n: nat): (text: string)
    ensures StartsWith(text, NatToString(n) + " " + AlertNoun(n))
    ensures var k := |NatToString(n)|; |text| > k && text[..k] == NatToString(n) && text[k] == ' '
    ensures |text| > |AlertTail| && text[|text| - |AlertTail|..] == AlertTail
    ensures text[|text| - |AlertTail| - 1] == 's' <==> n != 1
  {
    var head := NatToString(n) + " " + AlertNoun(n);
    var text := head + AlertTail;
    assert text[..|head|] == head;
    assert text[|head|..] == AlertTail;
    assert text[..|NatToString(n)|] == head[..|NatToString(n)|];
    assert text[|text| - |AlertTail| - 1] == head[|head| - 1];
    text
  }

  /** The messages shown when the filtered list is empty. */
  const NoMatchMessage: string := "No translations found matching your search."
  const NoMissingMessage: string := "No missing translations! Great job!"
  const NoTranslationsMessage: string := "No translations yet. Add your first translation!"

  /**
   The message for an empty list, in priority order: a search term explains it
   first, then the missing-only toggle, else there are none at all.
   */
  function EmptyMessage(term: string, missingOnly: bool): (m: string)
    ensures term != "" ==> m == NoMatchMessage
    ensures term == "" && missingOnly ==> m == NoMissingMessage
    ensures term == "" && !missingOnly ==> m == NoTranslationsMessage
  {
    if term != "" then NoMatchMessage
    else if missingOnly then NoMissingMessage
    else NoTranslationsMessage
  }

  /** What the table area shows once loaded: the empty-state message exactly when the filtered list is empty. */
  function EmptyState(ts: seq<Translation>, term: string, missingOnly: bool): (m: Option<string>)
    ensures m.Some? <==> forall t :: t in ts ==> !MatchesSearch(t, term)
    ensures m.Some? ==> m.value == EmptyMessage(term, missingOnly)
  {
    var shown := FilterTranslations(ts, term);
    if |shown| == 0 then Some(EmptyMessage(term, missingOnly))
    else
      assert shown[0] in shown;
      None
  }

  /** With no search term, the empty state appears only for an empty list. */
  lemma NoTermEmptyStateIffNoRows(ts: seq<Translation>, missingOnly: bool)
    ensures EmptyState(ts, "", missingOnly).Some? <==> ts == []
  {
    EmptyTermKeepsAll(ts);
  }
}

=== FILE: course_card.dfy ===
/**
 The course card: which language's text it shows for each field, the
 category badge, the salary line with its phrases translated, and the row of
 career-pathway chips.
 */
module CourseCard {
  import opened Types
  import opened Text
  import opened LanguageContext

  /**
   The bilingual choice the card makes for title and description: the Chinese
   text in Chinese when it is present and non-empty, the English text otherwise.
   */
  function Pick(l: Language, en: string, zh: Option<string>): (r: string)
    ensures l == En ==> r == en
    ensures r == en || zh == Some(r)
    ensures r == "" ==> en == ""
  {
    if l == Zh && zh.Some? && zh.value != "" then zh.value else en
  }

  /** In Chinese the Chinese text is shown exactly when it is present and non-empty. */
  lemma PickChineseIff(en: string, zh: Option<string>)
    requires zh != Some(en)
    ensures Pick(Zh, en, zh) != en <==> zh.Some? && zh.value != ""
  {
  }

  /** `language === "zh" && course.title_zh ? course.title_zh : course.title_en`. */
  function Title(c: Course, l: Language): (r: string)
    ensures l == Zh && c.titleZh.Some? && c.titleZh.value != "" ==> r == c.titleZh.value
    ensures l == En || c.titleZh.GetOr("") == "" ==> r == c.titleEn
  {
    Pick(l, c.titleEn, c.titleZh)
  }

  /** The description, chosen the same way as the title. */
  function Description(c: Course, l: Language): (r: string)
    ensures l == Zh && c.descriptionZh.Some? && c.descriptionZh.value != "" ==> r == c.descriptionZh.value
    ensures l == En || c.descriptionZh.GetOr("") == "" ==> r == c.descriptionEn
  {
    Pick(l, c.descriptionEn, c.descriptionZh)
  }

  /**
   The career pathways shown: the Chinese list in Chinese whenever it is
   present, even when empty, because an empty array is truthy.
   */
  function CareerPathways(c: Course, l: Language): (r: seq<string>)
    ensures l == En || c.careerPathwaysZh == None ==> r == c.careerPathwaysEn
    ensures l == Zh && c.careerPathwaysZh.Some? ==> r == c.careerPathwaysZh.value
  {
    if l == Zh && c.careerPathwaysZh.Some? then c.careerPathwaysZh.value else c.careerPathwaysEn
  }

  /** The known category keys and their labels. */
  const CategoryNames: map<string, Entry> := map[
    "business" := Entry("Business", "商业"),
    "healthcare" := Entry("Healthcare", "医疗"),
    "technology" := Entry("Technology", "技术"),
    "trades" := Entry("Trades", "技能"),
    "education" := Entry("Education", "教育"),
    "hospitality" := Entry("Hospitality", "酒店管理"),
    "creative" := Entry("Creative Arts", "创意艺术"),
    "finance" := Entry("Finance", "金融")
  ]

  /**
   `formatCategory(cat)`: nothing for a null or empty category, the label in
   the current language for a known key, the raw text for any other.
   */
  function FormatCategory(cat: Option<string>, l: Language): (r: Option<string>)
    ensures r == None <==> cat == None || cat == Some("")
    ensures cat.Some? && cat.value in CategoryNames ==> r == Some(CategoryNames[cat.value].In(l))
    ensures cat.Some? && cat.value != "" && cat.value !in CategoryNames ==> r == cat
  {
    if cat == None || cat.value == "" then None
    else if cat.value in CategoryNames && CategoryNames[cat.value].In(l) != "" then Some(CategoryNames[cat.value].In(l))
    else cat
  }

  /** Exactly eight category keys have labels. */
  lemma KnownCategories()
    ensures CategoryNames.Keys == {"business", "healthcare", "technology", "trades", "education", "hospitality", "creative", "finance"}
  {
  }

  /**
   `translateSalaryRange(s)`: empty text is returned as is; otherwise every
   case-insensitive "entry-level" and then every "with experience" is replaced
   by its translation.
   */
  function TranslateSalaryRange(s: string, l: Language): (r: string)
    ensures s == "" ==> r == ""
  {
    if s == "" then s
    else
      var once := ReplaceAllIgnoringCase(s, "entry-level", T(l, "salary.entryLevel", None));
      ReplaceAllIgnoringCase(once, "with experience", T(l, "salary.withExperience", None))
  }

  /** Every case-insensitive match of `pat` in `s` is spelled exactly as `pat`. */
  predicate OnlyExactMatches(s: string, pat: string) {
    forall i | 0 <= i <= |s| - |pat| :: MatchesAtIgnoringCase(s, pat, i) ==> s[i..i + |pat|] == pat
  }

  /**
   In English the translations are the lowercase phrases themselves, so a
   salary text whose phrases are all written in lowercase comes back unchanged.
   */
  lemma EnglishSalaryUnchanged(s: string)
    requires OnlyExactMatches(s, "entry-level")
    requires OnlyExactMatches(s, "with experience")
    ensures TranslateSalaryRange(s, En) == s
  {
    if s != "" {
      assert T(En, "salary.entryLevel", None) == "entry-level";
      assert T(En, "salary.withExperience", None) == "with experience";
      ReplaceBySelfKeepsExactText(s, "entry-level");
      ReplaceBySelfKeepsExactText(s, "with experience");
    }
  }

  /** A salary text without either phrase, in any case, is shown unchanged in both languages. */
  lemma SalaryWithoutPhrasesUnchanged(s: string, l: Language)
    requires forall i :: !MatchesAtIgnoringCase(s, "entry-level", i)
    requires forall i :: !MatchesAtIgnoringCase(s, "with experience", i)
    ensures TranslateSalaryRange(s, l) == s
  {
  }

  /** The match ignores case: a capitalised phrase is translated too. */
  lemma CapitalisedPhraseTranslated(s: string)
    requires s == "Entry-level"
    ensures TranslateSalaryRange(s, Zh) == "入门级"
  {
    assert Lower(s) == "entry-level";
    assert s[..|"entry-level"|] == s && s[|"entry-level"|..] == "";
    var once := ReplaceAllIgnoringCase(s, "entry-level", "入门级");
    assert once == "入门级";
    assert ReplaceAllIgnoringCase(once, "with experience", "有经验") == once;
  }

  /** The texts "entry-level" is translated to, neither of which holds a "w". */
  lemma EntryLevelTexts(l: Language)
    ensures T(l, "salary.entryLevel", None) == if l == En then "entry-level" else "入门级"
    ensures forall k :: 0 <= k < |T(l, "salary.entryLevel", None)| ==> LowerChar(T(l, "salary.entryLevel", None)[k]) != 'w'
  {
  }

  /** No character of `a + r` lowers to `c` when none of `a` and none of `r` does. */
  lemma LowerCharAbsentFromConcat(a: string, r: string, c: char)
    requires forall k :: 0 <= k < |a| ==> LowerChar(a[k]) != c
    requires forall k :: 0 <= k < |r| ==> LowerChar(r[k]) != c
    ensures forall k :: 0 <= k < |a + r| ==> LowerChar((a + r)[k]) != c
  {
    forall k | 0 <= k < |a + r|
      ensures LowerChar((a + r)[k]) != c
    {
      if k >= |a| {
        assert (a + r)[k] == r[k - |a|];
      }
    }
  }

  /**
   A salary text holding one "entry-level", in any case, shows it translated
   and everything else as written, provided no phrase match starts before it,
   nothing before it reads as a "w", and the text after it holds neither phrase.
   */
  lemma EntryLevelPhraseTranslated(a: string, v: string, b: string, l: Language)
    requires Lower(v) == "entry-level"
    requires forall i :: 0 <= i < |a| ==> !MatchesAtIgnoringCase(a + v + b, "entry-level", i)
    requires forall k :: 0 <= k < |a| ==> LowerChar(a[k]) != 'w'
    requires forall i :: !MatchesAtIgnoringCase(b, "entry-level", i)
    requires forall i :: !MatchesAtIgnoringCase(b, "with experience", i)
    ensures TranslateSalaryRange(a + v + b, l) == a + (if l == En then "entry-level" else "入门级") + b
  {
    var rep1 := T(l, "salary.entryLevel", None);
    var rep2 := T(l, "salary.withExperience", None);
    EntryLevelTexts(l);
    LowerFixesLowerCase("entry-level");
    ReplaceLeftmostMatch(a, v, b, "entry-level", rep1);
    LowerCharAbsentFromConcat(a, rep1, 'w');
    NoMatchBeforeFirstChar(a + rep1, b, "with experience");
    ReplaceAfterMatchFreePrefix(a + rep1, b, "with experience", rep2);
    assert a + rep1 + b == (a + rep1) + b;
  }

  /** The chips of the pathways row: the first two pathways and, when more exist, a "+N" count. */
  datatype ChipRow = ChipRow(chips: seq<string>, more: Option<nat>)

  function PathwayChips(paths: seq<string>): (r: ChipRow)
    ensures |r.chips| <= 2 && r.chips <= paths
    ensures |r.chips| == 2 || r.chips == paths
    ensures r.more.Some? <==> |paths| > 2
    ensures r.more.Some? ==> |r.chips| + r.more.value == |paths|
  {
    var shown := if |paths| <= 2 then paths else paths[..2];
    if |paths| > 2 then ChipRow(shown, Some(|paths| - 2)) else ChipRow(shown, None)
  }

  /** What one card shows; an absent part is not rendered. */
  datatype Card = Card(
    title: string,
    description: string,
    category: Option<string>,
    salary: Option<string>,
    pathways: Option<ChipRow>
  )

  /** The card of course `c` in language `l`. */
  function View(c: Course, l: Language): (r: Card)
    ensures r.category.Some? <==> c.category != ""
    ensures r.salary.Some? <==> c.salaryRange != ""
    ensures r.pathways.Some? <==> |CareerPathways(c, l)| > 0
  {
    var paths := CareerPathways(c, l);
    Card(
      Title(c, l),
      Description(c, l),
      if c.category == "" then None else FormatCategory(Some(c.category), l),
      if c.salaryRange == "" then None else Some(TranslateSalaryRange(c.salaryRange, l)),
      if |paths| > 0 then Some(PathwayChips(paths)) else None)
  }

  /** The English card shows every English field as stored. */
  lemma EnglishCardShowsEnglish(c: Course)
    ensures View(c, En).title == c.titleEn
    ensures View(c, En).description == c.descriptionEn
    ensures View(c, En).pathways.Some? <==> |c.careerPathwaysEn| > 0
  {
  }

  /**
   A present but empty Chinese pathway list hides the pathways section of the
   Chinese card, whatever the English list holds.
   */
  lemma EmptyChinesePathwaysHideSection(c: Course)
    requires c.careerPathwaysZh == Some([])
    ensures View(c, Zh).pathways == None
  {
  }
}

=== FILE: course_form.dfy ===
/**
 The admin course form: the fields it starts from, the editing of its four
 bullet lists, and the cleaned record it saves.
 */
module CourseForm {
  import opened Types
  import opened Text
  import opened Json
  import Seqs

  /** The four editable bullet lists. */
  datatype ListField = KeyLearningEn | KeyLearningZh | CareerPathwaysEn | CareerPathwaysZh

  /** The form state; every text field is a plain string, empty when unset. */
  datatype FormData = FormData(
    slug: string,
    titleEn: string,
    titleZh: string,
    descriptionEn: string,
    descriptionZh: string,
    keyLearningEn: seq<string>,
    keyLearningZh: seq<string>,
    careerPathwaysEn: seq<string>,
    careerPathwaysZh: seq<string>,
    employmentOutlookEn: string,
    employmentOutlookZh: string,
    salaryRange: string,
    category: string,
    isPublished: bool
  ) {
    /** `formData[field]`. */
    function List(f: ListField): seq<string> {
      match f
      case KeyLearningEn => keyLearningEn
      case KeyLearningZh => keyLearningZh
      case CareerPathwaysEn => careerPathwaysEn
      case CareerPathwaysZh => careerPathwaysZh
    }

    /** `{ ...formData, [field]: items }`. */
    function WithList(f: ListField, items: seq<string>): (r: FormData)
      ensures r.List(f) == items
      ensures SameExcept(r, this, f)
    {
      match f
      case KeyLearningEn => this.(keyLearningEn := items)
      case KeyLearningZh => this.(keyLearningZh := items)
      case CareerPathwaysEn => this.(careerPathwaysEn := items)
      case CareerPathwaysZh => this.(careerPathwaysZh := items)
    }
  }

  /** The fields that are not lists agree. */
  predicate SameScalars(a: FormData, b: FormData) {
    && a.slug == b.slug && a.titleEn == b.titleEn && a.titleZh == b.titleZh
    && a.descriptionEn == b.descriptionEn && a.descriptionZh == b.descriptionZh
    && a.employmentOutlookEn == b.employmentOutlookEn && a.employmentOutlookZh == b.employmentOutlookZh
    && a.salaryRange == b.salaryRange && a.category == b.category && a.isPublished == b.isPublished
  }

  /** `a` and `b` agree on everything but list `f`. */
  predicate SameExcept(a: FormData, b: FormData, f: ListField) {
    SameScalars(a, b) && forall g :: g != f ==> a.List(g) == b.List(g)
  }

  /**
   The form's starting state. A new course starts from empty text, one empty
   item per list, category "business" and published; an existing course
   keeps its values, with a missing Chinese text read as "", a missing Chinese
   list as one empty item, and an empty category as "business".
   */
  function Initial(course: Option<Course>): (r: FormData)
    ensures course == None ==>
      && r.slug == "" && r.titleEn == "" && r.titleZh == "" && r.descriptionEn == "" && r.descriptionZh == ""
      && r.employmentOutlookEn == "" && r.employmentOutlookZh == "" && r.salaryRange == ""
    ensures course == None ==> forall f :: r.List(f) == [""]
    ensures course == None ==> r.category == "business" && r.isPublished
    ensures course.Some? ==>
      && r.slug == course.value.slug && r.titleEn == course.value.titleEn
      && r.descriptionEn == course.value.descriptionEn && r.employmentOutlookEn == course.value.employmentOutlookEn
      && r.salaryRange == course.value.salaryRange && r.isPublished == course.value.isPublished
    ensures course.Some? ==> r.keyLearningEn == course.value.keyLearningEn && r.careerPathwaysEn == course.value.careerPathwaysEn
    ensures course.Some? ==>
      && r.titleZh == course.value.titleZh.GetOr("") && r.descriptionZh == course.value.descriptionZh.GetOr("")
      && r.employmentOutlookZh == course.value.employmentOutlookZh.GetOr("")
    ensures course.Some? ==>
      r.keyLearningZh == course.value.keyLearningZh.GetOr([""]) && r.careerPathwaysZh == course.value.careerPathwaysZh.GetOr([""])
    ensures course.Some? ==> r.category == if course.value.category == "" then "business" else course.value.category
    ensures r.category != ""
  {
    match course
    case None =>
      FormData("", "", "", "", "", [""], [""], [""], [""], "", "", "", "business", true)
    case Some(c) =>
      FormData(
        c.slug, c.titleEn, c.titleZh.GetOr(""), c.descriptionEn, c.descriptionZh.GetOr(""),
        c.keyLearningEn, c.keyLearningZh.GetOr([""]), c.careerPathwaysEn, c.careerPathwaysZh.GetOr([""]),
        c.employmentOutlookEn, c.employmentOutlookZh.GetOr(""), c.salaryRange,
        if c.category == "" then "business" else c.category,
        c.isPublished)
  }

  /** `prev[field].map((item, i) => i === index ? value : item)`. */
  function ReplaceAt(xs: seq<string>, index: int, value: string): (r: seq<string>)
    ensures 0 <= index < |xs| ==> r == xs[index := value]
    ensures !(0 <= index < |xs|) ==> r == xs
  {
    seq(|xs|, i requires 0 <= i < |xs| => if i == index then value else xs[i])
  }

  /** `prev[field].filter((_, i) => i !== index)`, walking the list with the index counting down. */
  function DropIndex(xs: seq<string>, index: int): (r: seq<string>)
    ensures 0 <= index < |xs| ==> r == xs[..index] + xs[index + 1..]
    ensures !(0 <= index < |xs|) ==> r == xs
  {
    if |xs| == 0 then []
    else
      var rest := DropIndex(xs[1..], index - 1);
      if index == 0 then rest
      else
        assert 0 < index < |xs| ==> xs[..index] == [xs[0]] + xs[1..][..index - 1];
        [xs[0]] + rest
  }

  /** `addArrayItem(field)`: one empty item more at the end of the list, nothing else changed. */
  function AddItem(form: FormData, f: ListField): (r: FormData)
    ensures r.List(f) == form.List(f) + [""]
    ensures SameExcept(r, form, f)
  {
    form.WithList(f, form.List(f) + [""])
  }

  /** `updateArrayItem(field, index, value)`: only the item at `index` changes; an index out of range changes nothing. */
  function UpdateItem(form: FormData, f: ListField, index: int, value: string): (r: FormData)
    ensures |r.List(f)| == |form.List(f)|
    ensures forall i :: 0 <= i < |form.List(f)| && i != index ==> r.List(f)[i] == form.List(f)[i]
    ensures 0 <= index < |form.List(f)| ==> r.List(f)[index] == value
    ensures SameExcept(r, form, f)
  {
    form.WithList(f, ReplaceAt(form.List(f), index, value))
  }

  /** `removeArrayItem(field, index)`: only the item at `index` goes, the rest keep their order; an index out of range changes nothing. */
  function RemoveItem(form: FormData, f: ListField, index: int): (r: FormData)
    ensures 0 <= index < |form.List(f)| ==> r.List(f) == form.List(f)[..index] + form.List(f)[index + 1..]
    ensures !(0 <= index < |form.List(f)|) ==> r == form
    ensures SameExcept(r, form, f)
  {
    if 0 <= index < |form.List(f)| then form.WithList(f, DropIndex(form.List(f), index))
    else form
  }

  /**
   The remove button is rendered only while a list holds more than one item,
   so a removal it allows never empties the list.
   */
  function CanRemove(form: FormData, f: ListField): (b: bool)
    ensures b <==> |form.List(f)| >= 2
    ensures b ==> forall i :: |RemoveItem(form, f, i).List(f)| > 0
  {
    |form.List(f)| > 1
  }

  /** One edit the form's controls can make. */
  datatype Edit =
    | Add(f: ListField)
    | Update(f: ListField, index: int, value: string)
    | Remove(f: ListField, index: int)

  /** The effect of an edit made through the form; a remove without its button does not happen. */
  function ApplyEdit(form: FormData, e: Edit): (r: FormData)
    ensures SameExcept(r, form, e.f)
  {
    match e
    case Add(f) => AddItem(form, f)
    case Update(f, i, v) => UpdateItem(form, f, i, v)
    case Remove(f, i) => if CanRemove(form, f) then RemoveItem(form, f, i) else form
  }

  /** A run of edits changes only lists, and only the lists some edit names. */
  function ApplyEdits(form: FormData, es: seq<Edit>): (r: FormData)
    ensures SameScalars(r, form)
    ensures forall g :: (forall k :: 0 <= k < |es| ==> es[k].f != g) ==> r.List(g) == form.List(g)
    decreases |es|
  {
    if |es| == 0 then form
    else
      assert forall k :: 1 <= k < |es| ==> es[1..][k - 1] == es[k];
      ApplyEdits(ApplyEdit(form, es[0]), es[1..])
  }

  predicate ListsNonEmpty(form: FormData) {
    forall f :: |form.List(f)| > 0
  }

  /** A new course's form starts with an item in every list. */
  lemma NewFormListsNonEmpty()
    ensures ListsNonEmpty(Initial(None))
  {
  }

  /**
   Edits made through the form never empty a list that had an item, whatever
   the other lists hold: each list's remove button is decided on its own.
   */
  lemma {:induction false} EditsKeepListsNonEmpty(form: FormData, es: seq<Edit>, g: ListField)
    requires |form.List(g)| > 0
    ensures |ApplyEdits(form, es).List(g)| > 0
    decreases |es|
  {
    if |es| > 0 {
      var next := ApplyEdit(form, es[0]);
      assert |next.List(g)| > 0 by {
        match es[0]
        case Add(f) =>
        case Update(f, i, v) =>
        case Remove(f, i) =>
          if CanRemove(form, f) && g == f && 0 <= i < |form.List(f)| {
            assert |next.List(g)| == |form.List(f)| - 1;
          }
      }
      EditsKeepListsNonEmpty(next, es[1..], g);
    }
  }

  /** `item.trim()` is truthy. */
  predicate NonBlank(item: string) {
    Trim(item) != ""
  }

  /** `list.filter((item) => item.trim())`. */
  function CleanList(xs: seq<string>): (r: seq<string>)
    ensures forall i :: 0 <= i < |r| ==> NonBlank(r[i])
    ensures forall x :: x in xs && NonBlank(x) ==> x in r
    ensures Seqs.IsSubsequence(r, xs)
  {
    var r := Seqs.Filter(xs, NonBlank);
    assert forall i :: 0 <= i < |r| ==> r[i] in r;
    r
  }

  /** Cleaning keeps each non-blank item as many times as the list holds it, and drops every blank one. */
  lemma CleanListMultiplicity(xs: seq<string>)
    ensures forall x :: multiset(CleanList(xs))[x] == if NonBlank(x) then multiset(xs)[x] else 0
  {
    Seqs.FilterMultiplicity(xs, NonBlank);
  }

  /** Cleaning a cleaned list changes nothing. */
  lemma CleanListIdempotent(xs: seq<string>)
    ensures CleanList(CleanList(xs)) == CleanList(xs)
  {
    Seqs.FilterKeepsAllIff(CleanList(xs), NonBlank);
  }

  /** A list is kept whole exactly when none of its items is blank. */
  lemma CleanListKeepsAllIff(xs: seq<string>)
    ensures CleanList(xs) == xs <==> forall i :: 0 <= i < |xs| ==> NonBlank(xs[i])
  {
    Seqs.FilterKeepsAllIff(xs, NonBlank);
  }

  /** A record to write to the `courses` table, column by column. */
  type CourseRecord = map<CourseColumn, Json>

  /** The column list `f` is saved in. */
  function ColumnOf(f: ListField): (c: CourseColumn)
    ensures c.KeyLearningEn? || c.KeyLearningZh? || c.CareerPathwaysEn? || c.CareerPathwaysZh?
  {
    match f
    case KeyLearningEn => CourseColumn.KeyLearningEn
    case KeyLearningZh => CourseColumn.KeyLearningZh
    case CareerPathwaysEn => CourseColumn.CareerPathwaysEn
    case CareerPathwaysZh => CourseColumn.CareerPathwaysZh
  }

  /** Whether column `c` holds one of the lists. */
  predicate IsListColumn(c: CourseColumn) {
    c.KeyLearningEn? || c.KeyLearningZh? || c.CareerPathwaysEn? || c.CareerPathwaysZh?
  }

  /** The form's value for column `c`. */
  function Field(form: FormData, c: CourseColumn): Json {
    match c
    case Slug => JStr(form.slug)
    case TitleEn => JStr(form.titleEn)
    case TitleZh => JStr(form.titleZh)
    case DescriptionEn => JStr(form.descriptionEn)
    case DescriptionZh => JStr(form.descriptionZh)
    case KeyLearningEn => Strings(form.keyLearningEn)
    case KeyLearningZh => Strings(form.keyLearningZh)
    case CareerPathwaysEn => Strings(form.careerPathwaysEn)
    case CareerPathwaysZh => Strings(form.careerPathwaysZh)
    case EmploymentOutlookEn => JStr(form.employmentOutlookEn)
    case EmploymentOutlookZh => JStr(form.employmentOutlookZh)
    case SalaryRange => JStr(form.salaryRange)
    case Category => JStr(form.category)
    case IsPublished => JBool(form.isPublished)
  }

  /** `list.filter(...) || null`: an array, being truthy, is never replaced by `null`. */
  function ArrayOrNull(items: seq<string>): (r: Json)
    ensures r == Strings(items)
  {
    var arr := Strings(items);
    if Truthy(arr) then arr else JNull
  }

  /** The value `cleanData` holds for column `c`: the form's value, with blank items dropped from the lists. */
  function CleanField(form: FormData, c: CourseColumn): Json {
    match c
    case KeyLearningEn => Strings(CleanList(form.keyLearningEn))
    case KeyLearningZh => ArrayOrNull(CleanList(form.keyLearningZh))
    case CareerPathwaysEn => Strings(CleanList(form.careerPathwaysEn))
    case CareerPathwaysZh => ArrayOrNull(CleanList(form.careerPathwaysZh))
    case _ => Field(form, c)
  }

  /** A list's column holds the cleaned list as an array. */
  lemma CleanListField(form: FormData, f: ListField)
    ensures CleanField(form, ColumnOf(f)) == Strings(CleanList(form.List(f)))
  {
  }

  /**
   `cleanData`: the form's record with blank items dropped from every list.
   The Chinese lists go through `|| null`, which never fires, so every list
   column holds an array.
   */
  function CleanData(form: FormData): (o: CourseRecord)
    ensures forall c: CourseColumn :: c in o
    ensures forall c: CourseColumn :: !IsListColumn(c) ==> o[c] == Field(form, c)
    ensures forall f: ListField :: o[ColumnOf(f)] == Strings(CleanList(form.List(f)))
    ensures forall f: ListField :: o[ColumnOf(f)] != JNull
  {
    forall f: ListField ensures CleanField(form, ColumnOf(f)) == Strings(CleanList(form.List(f))) {
      CleanListField(form, f);
    }
    map c: CourseColumn :: CleanField(form, c)
  }

  /** The write the form issues on submit. */
  datatype SaveRequest = UpdateCourse(id: string, data: CourseRecord) | InsertCourse(data: CourseRecord)

  /** Editing updates the row with the course's id; creating inserts a new row. Both carry `cleanData`. */
  function Save(course: Option<Course>, form: FormData): (r: SaveRequest)
    ensures r.UpdateCourse? <==> course.Some?
    ensures r.UpdateCourse? ==> r.id == course.value.id
    ensures r.data == CleanData(form)
  {
    match course
    case Some(c) => UpdateCourse(c.id, CleanData(form))
    case None => InsertCourse(CleanData(form))
  }

  /** The value a stored course holds in column `c`, `null` where a Chinese column is unset. */
  function Stored(course: Course, c: CourseColumn): Json {
    match c
    case Slug => JStr(course.slug)
    case TitleEn => JStr(course.titleEn)
    case TitleZh => Nullable(course.titleZh)
    case DescriptionEn => JStr(course.descriptionEn)
    case DescriptionZh => Nullable(course.descriptionZh)
    case KeyLearningEn => Strings(course.keyLearningEn)
    case KeyLearningZh => if course.keyLearningZh.Some? then Strings(course.keyLearningZh.value) else JNull
    case CareerPathwaysEn => Strings(course.careerPathwaysEn)
    case CareerPathwaysZh => if course.careerPathwaysZh.Some? then Strings(course.careerPathwaysZh.value) else JNull
    case EmploymentOutlookEn => JStr(course.employmentOutlookEn)
    case EmploymentOutlookZh => Nullable(course.employmentOutlookZh)
    case SalaryRange => JStr(course.salaryRange)
    case Category => JStr(course.category)
    case IsPublished => JBool(course.isPublished)
  }

  /** Every list item of the course is non-blank. */
  predicate ItemsNonBlank(course: Course) {
    && (forall i :: 0 <= i < |course.keyLearningEn| ==> NonBlank(course.keyLearningEn[i]))
    && (forall i :: 0 <= i < |course.careerPathwaysEn| ==> NonBlank(course.careerPathwaysEn[i]))
    && (forall i :: 0 <= i < |course.keyLearningZh.GetOr([])| ==> NonBlank(course.keyLearningZh.GetOr([])[i]))
    && (forall i :: 0 <= i < |course.careerPathwaysZh.GetOr([])| ==> NonBlank(course.careerPathwaysZh.GetOr([])[i]))
  }

  /** The Chinese columns are all set. */
  predicate ChineseSet(course: Course) {
    && course.titleZh.Some? && course.descriptionZh.Some? && course.employmentOutlookZh.Some?
    && course.keyLearningZh.Some? && course.careerPathwaysZh.Some?
  }

  /** Column by column, the cleaned unedited form holds what the row held. */
  lemma CleanFieldOfInitial(course: Course, c: CourseColumn)
    requires ChineseSet(course) && ItemsNonBlank(course) && course.category != ""
    ensures CleanField(Initial(Some(course)), c) == Stored(course, c)
  {
    match c
    case KeyLearningEn => CleanListKeepsAllIff(course.keyLearningEn);
    case KeyLearningZh =>
      assert course.keyLearningZh.GetOr([]) == course.keyLearningZh.value;
      CleanListKeepsAllIff(course.keyLearningZh.value);
    case CareerPathwaysEn => CleanListKeepsAllIff(course.careerPathwaysEn);
    case CareerPathwaysZh =>
      assert course.careerPathwaysZh.GetOr([]) == course.careerPathwaysZh.value;
      CleanListKeepsAllIff(course.careerPathwaysZh.value);
    case _ =>
  }

  /**
   Opening a course for editing and saving it unchanged writes back the row it
   was read from, provided every Chinese column is set, no list item is blank
   and the category is not empty: the form's defaults are then never used.
   */
  lemma UnchangedEditSavesCourse(course: Course)
    requires ChineseSet(course)
    requires ItemsNonBlank(course)
    requires course.category != ""
    ensures Save(Some(course), Initial(Some(course))) == UpdateCourse(course.id, map c: CourseColumn :: Stored(course, c))
  {
    var data := CleanData(Initial(Some(course)));
    var row := map c: CourseColumn :: Stored(course, c);
    forall c: CourseColumn
      ensures data[c] == row[c]
    {
      CleanFieldOfInitial(course, c);
    }
    assert data == row;
  }

  /**
   Saving an unedited course whose Chinese text is unset writes `""` where the
   row held `null`: the form reads a missing Chinese text as empty and the save
   keeps it.
   */
  lemma UnsetChineseTitleSavedEmpty(course: Course)
    requires course.titleZh == None
    ensures Stored(course, TitleZh) == JNull
    ensures Save(Some(course), Initial(Some(course))).data[TitleZh] == JStr("")
  {
    assert CleanData(Initial(Some(course)))[TitleZh] == Field(Initial(Some(course)), TitleZh);
  }
}

=== FILE: courses_api.dfy ===
/**
 The courses route: GET reads one published course by slug or lists the
 published courses under the query's filters; POST creates a course for an
 admin after checking the session, the role row and the required fields.
 */
module CoursesApi {
  import opened Types
  import opened Text
  import opened Json
  import opened Query
  import opened Supabase
  import Seqs

  /** The answer to a GET. */
  datatype GetResponse =
    | Single(course: Course)
    | NotFound
    | Listing(courses: seq<Course>, count: nat)
  {
    function Status(): nat {
      if NotFound? then 404 else 200
    }
  }

  /** The category filter is on when the parameter is present, non-empty and not "all". */
  predicate CategoryActive(ps: Params) {
    Get(ps, "category").Some? && Get(ps, "category").value != "" && Get(ps, "category").value != "all"
  }

  /** The search is on when the parameter is present and not blank. */
  predicate SearchActive(ps: Params) {
    Get(ps, "search").Some? && Trim(Get(ps, "search").value) != ""
  }

  /** A course matches a search when the term occurs, ignoring case, in either title or either description. */
  function MatchesSearch(c: Course, term: string): (b: bool)
    ensures term == "" ==> b
    ensures ContainsIgnoringCase(c.titleEn, term) || ContainsIgnoringCase(c.descriptionEn, term) ==> b
    ensures c.titleZh.Some? && ContainsIgnoringCase(c.titleZh.value, term) ==> b
    ensures c.descriptionZh.Some? && ContainsIgnoringCase(c.descriptionZh.value, term) ==> b
    ensures c.titleZh == None && c.descriptionZh == None ==>
      (b <==> ContainsIgnoringCase(c.titleEn, term) || ContainsIgnoringCase(c.descriptionEn, term))
  {
    ContainsEmpty(Lower(c.titleEn));
    (|| ContainsIgnoringCase(c.titleEn, term)
    || (c.titleZh.Some? && ContainsIgnoringCase(c.titleZh.value, term))
    || ContainsIgnoringCase(c.descriptionEn, term)
    || (c.descriptionZh.Some? && ContainsIgnoringCase(c.descriptionZh.value, term)))
  }

  /** The conditions the list query puts on a row: published, plus the active filters. */
  predicate Listed(ps: Params, c: Course) {
    && c.isPublished
    && (CategoryActive(ps) ==> c.category == Get(ps, "category").value)
    && (SearchActive(ps) ==> MatchesSearch(c, Get(ps, "search").value))
  }

  /** Newest first: descending `created_at`. */
  predicate NewestFirst(a: Course, b: Course) {
    a.createdAt >= b.createdAt
  }

  lemma NewestFirstTotal()
    ensures Seqs.Total(NewestFirst)
  {
  }

  /** The rows with this slug that are published. */
  function PublishedWithSlug(table: seq<Course>, slug: string): (r: seq<Course>)
    ensures forall c :: c in r <==> c in table && c.slug == slug && c.isPublished
  {
    Seqs.Filter(table, (c: Course) => c.slug == slug && c.isPublished)
  }

  /** The slug branch: the course when exactly one published row has the slug, otherwise 404. */
  function BySlug(table: seq<Course>, slug: string): (r: GetResponse)
    ensures r.Single? || r.NotFound?
    ensures r.Single? ==> r.course in table && r.course.isPublished && r.course.slug == slug
    ensures r.NotFound? <==> |PublishedWithSlug(table, slug)| != 1
  {
    var hits := PublishedWithSlug(table, slug);
    if |hits| == 1 then
      assert hits[0] in hits;
      Single(hits[0])
    else NotFound
  }

  /** The list branch: the published rows passing the active filters, newest first, with their count. */
  function List(ps: Params, table: seq<Course>): (r: GetResponse)
    ensures r.Listing?
    ensures forall c :: c in r.courses <==> c in table && Listed(ps, c)
    ensures multiset(r.courses) == multiset(Seqs.Filter(table, c => Listed(ps, c)))
    ensures Seqs.SortedBy(r.courses, NewestFirst)
    ensures r.count == |r.courses|
  {
    var rows := Seqs.Filter(table, c => Listed(ps, c));
    assert forall c :: c in rows <==> c in table && Listed(ps, c);
    NewestFirstTotal();
    var sorted := Seqs.SortBy(rows, NewestFirst);
    assert forall c :: c in sorted <==> c in multiset(rows);
    Listing(sorted, |sorted|)
  }

  /** GET: a non-empty `slug` parameter selects the slug branch, and only it runs; otherwise the list branch. */
  function HandleGet(ps: Params, table: seq<Course>): (r: GetResponse)
    ensures r.Single? || r.NotFound? <==> Get(ps, "slug").Some? && Get(ps, "slug").value != ""
    ensures r.Single? ==> r.course in table && r.course.isPublished && Some(r.course.slug) == Get(ps, "slug")
    ensures Get(ps, "slug").Some? && Get(ps, "slug").value != "" ==>
      (r.NotFound? <==> |PublishedWithSlug(table, Get(ps, "slug").value)| != 1)
    ensures r.Listing? ==> forall c :: c in r.courses <==> c in table && Listed(ps, c)
    ensures r.Listing? ==> Seqs.SortedBy(r.courses, NewestFirst) && r.count == |r.courses|
  {
    var slug := Get(ps, "slug");
    if slug.Some? && slug.value != "" then BySlug(table, slug.value) else List(ps, table)
  }

  /** The list holds each matching row as many times as the table does: nothing is dropped or duplicated. */
  lemma ListingIsPermutation(ps: Params, table: seq<Course>)
    requires HandleGet(ps, table).Listing?
    ensures multiset(HandleGet(ps, table).courses) == multiset(Seqs.Filter(table, c => Listed(ps, c)))
  {
    assert HandleGet(ps, table) == List(ps, table);
  }

  /** Unpublished courses are never listed or returned by slug. */
  lemma DraftsStayHidden(ps: Params, table: seq<Course>, c: Course)
    requires !c.isPublished
    ensures HandleGet(ps, table).Listing? ==> c !in HandleGet(ps, table).courses
    ensures HandleGet(ps, table).Single? ==> HandleGet(ps, table).course != c
  {
  }

  /** The answer to a POST. */
  datatype PostResponse =
    | Unauthorized
    | Forbidden
    | MissingFields
    | Created(row: map<CourseColumn, Json>)
  {
    function Status(): nat {
      match this
      case Unauthorized => 401
      case Forbidden => 403
      case MissingFields => 400
      case Created(_) => 201
    }
  }

  /** The value written to column `c` from the request body. */
  function Inserted(body: Object, c: CourseColumn): Json
    requires "slug" in body && "title_en" in body
  {
    match c
    case Slug => body["slug"]
    case TitleEn => body["title_en"]
    case KeyLearningEn => FieldOr(body, c.Name(), JArr([]))
    case CareerPathwaysEn => FieldOr(body, c.Name(), JArr([]))
    case IsPublished => if c.Name() in body then body[c.Name()] else JBool(true)
    case _ => FieldOr(body, c.Name(), JNull)
  }

  /**
   The row inserted for a valid body: slug and English title as given, the
   English lists defaulting to `[]`, `is_published` to true only when absent,
   and every other column to `null` when its field is falsy.
   */
  function NewRow(body: Object): (row: map<CourseColumn, Json>)
    requires "slug" in body && "title_en" in body
    ensures forall c: CourseColumn :: c in row
    ensures row[Slug] == body["slug"] && row[TitleEn] == body["title_en"]
    ensures "is_published" !in body ==> row[IsPublished] == JBool(true)
    ensures "is_published" in body ==> row[IsPublished] == body["is_published"]
  {
    map c: CourseColumn :: Inserted(body, c)
  }

  /** An absent or falsy optional field is stored as null; an English list as the empty array. */
  lemma FalsyFieldsDefault(body: Object, c: CourseColumn)
    requires "slug" in body && "title_en" in body
    requires !c.Slug? && !c.TitleEn? && !c.IsPublished?
    requires !TruthyField(body, c.Name())
    ensures NewRow(body)[c] == if c.KeyLearningEn? || c.CareerPathwaysEn? then JArr([]) else JNull
  {
  }

  /** A truthy field is stored as sent. */
  lemma TruthyFieldsKept(body: Object, c: CourseColumn)
    requires "slug" in body && "title_en" in body
    requires TruthyField(body, c.Name())
    ensures NewRow(body)[c] == body[c.Name()]
  {
  }

  /**
   POST: 401 when the auth call fails or there is no session, then 403 when the
   user has no `admin_roles` row, then 400 when `title_en` or `slug` is falsy;
   otherwise the new row is created.
   */
  function HandlePost(a: Auth, body: Object): (r: PostResponse)
    ensures r == Unauthorized <==> a.sessionError || a.session == None
    ensures r == Forbidden <==> !a.sessionError && a.session.Some? && RoleRow(a, a.session.value.userId) == None
    ensures r == MissingFields ==> !TruthyField(body, "title_en") || !TruthyField(body, "slug")
    ensures r.Created? <==> !a.sessionError && a.session.Some? && RoleRow(a, a.session.value.userId).Some?
                            && TruthyField(body, "title_en") && TruthyField(body, "slug")
    ensures r.Created? ==> r.row == NewRow(body)
  {
    if a.sessionError || a.session == None then Unauthorized
    else if RoleRow(a, a.session.value.userId) == None then Forbidden
    else if !TruthyField(body, "title_en") || !TruthyField(body, "slug") then MissingFields
    else Created(NewRow(body))
  }

  /** Authentication is checked before anything about the body. */
  lemma PostChecksSessionFirst(a: Auth, body1: Object, body2: Object)
    requires a.session == None
    ensures HandlePost(a, body1) == HandlePost(a, body2) == Unauthorized
  {
  }

  /** An explicit `false` for `is_published` is kept. */
  lemma ExplicitDraftKept(body: Object)
    requires "slug" in body && "title_en" in body
    requires "is_published" in body && body["is_published"] == JBool(false)
    ensures NewRow(body)[IsPublished] == JBool(false)
  {
  }
}

=== FILE: courses_page.dfy ===
/**
 The public course catalogue page: the category choices, the query it asks
 the courses route with, how it takes the answer, and the results line.
 */
module CoursesPage {
  import opened Types
  import opened Text
  import opened Query
  import CoursesApi
  import Seqs

  /** A category button: the value sent and its two labels. */
  datatype CategoryChoice = CategoryChoice(value: string, labelEn: string, labelZh: string)

  const Categories: seq<CategoryChoice> := [
    CategoryChoice("all", "All Programs", "所有课程"),
    CategoryChoice("business", "Business", "商业"),
    CategoryChoice("healthcare", "Healthcare", "医疗"),
    CategoryChoice("technology", "Technology", "技术"),
    CategoryChoice("trades", "Trades & Services", "技能与服务")
  ]

  /** The buttons offer "all" first, then the four categories, in this order. */
  lemma CategoryValues()
    ensures |Categories| == 5
    ensures Categories[0].value == "all" && Categories[1].value == "business" && Categories[2].value == "healthcare"
    ensures Categories[3].value == "technology" && Categories[4].value == "trades"
  {
  }

  /**
   The query for a fetch: `category` unless "all" is chosen, and `search` when
   the term is not blank, carrying the term as typed, untrimmed.
   */
  function FetchParams(category: string, term: string): (ps: Params)
    ensures Get(ps, "category") == if category != "all" then Some(category) else None
    ensures Get(ps, "search") == if Trim(term) != "" then Some(term) else None
    ensures Get(ps, "slug") == None
  {
    var withCategory := AppendIf([], category != "all", "category", category);
    GetAfterAppend(withCategory, "search", term, "category");
    GetAfterAppend(withCategory, "search", term, "search");
    GetAfterAppend(withCategory, "search", term, "slug");
    AppendIf(withCategory, Trim(term) != "", "search", term)
  }

  /** The answer to a fetch: whether it was OK, and the `courses` it carries. */
  datatype FetchResponse = FetchResponse(ok: bool, courses: Option<seq<Course>>)

  /** The courses shown after a fetch: the answer's list when it is OK, otherwise those shown before. */
  function AfterFetch(shown: seq<Course>, response: FetchResponse): (r: seq<Course>)
    ensures !response.ok ==> r == shown
    ensures response.ok ==> r == response.courses.GetOr([])
  {
    if response.ok then response.courses.GetOr([]) else shown
  }

  /**
   A successful fetch with the page's own query shows exactly the published
   courses of the chosen category (of every category for "all") that match the
   typed term, newest first.
   */
  lemma FetchShowsCatalogue(shown: seq<Course>, category: string, term: string, table: seq<Course>)
    ensures var r := CoursesApi.HandleGet(FetchParams(category, term), table);
            var now := AfterFetch(shown, FetchResponse(true, Some(r.courses)));
            && r.Listing?
            && (forall c :: c in now <==>
                  && c in table && c.isPublished
                  && (category != "all" && category != "" ==> c.category == category)
                  && (Trim(term) != "" ==> CoursesApi.MatchesSearch(c, term)))
            && Seqs.SortedBy(now, CoursesApi.NewestFirst)
  {
  }

  /** The results line, e.g. "Showing 3 programs" or "显示 3 个课程". */
  function ResultsText(n: nat, l: Language): (text: string)
    ensures l == En ==> StartsWith(text, "Showing " + NatToString(n) + " program")
    ensures l == En ==> (text[|text| - 1] == 's' <==> n != 1)
    ensures l == Zh ==> StartsWith(text, "显示 " + NatToString(n)) && text[|text| - |" 个课程"|..] == " 个课程"
  {
    match l
    case En => "Showing " + NatToString(n) + " program" + (if n != 1 then "s" else "")
    case Zh => "显示 " + NatToString(n) + " 个课程"
  }

  /** In English the noun takes an "s" exactly when the count is not one. */
  lemma ResultsPluralIff(n: nat)
    ensures var text := ResultsText(n, En); text[|text| - 1] == 's' <==> n != 1
  {
  }

  /** The line always states the count. */
  lemma ResultsStateCount(n: nat, l: Language)
    ensures Contains(ResultsText(n, l), NatToString(n))
  {
    var text := ResultsText(n, l);
    var k := if l == En then |"Showing "| else |"显示 "|;
    assert text[k..k + |NatToString(n)|] == NatToString(n);
    assert OccursAt(text, NatToString(n), k);
  }
}

=== FILE: flows.dfy ===
/**
 How the pages and forms meet the route handlers: the query a page builds is
 read back by the route, and the body a form sends is what the route checks
 and writes.
 */
module Flows {
  import opened Types
  import opened Text
  import opened Json
  import opened Supabase
  import CoursesPage
  import CoursesApi
  import AdminTranslations
  import TranslationsApi
  import TranslationForm

  /**
   The catalogue lists exactly the published courses in the chosen category
   (any, for "all") that match the typed term when it is not blank.
   */
  lemma CatalogueQuery(category: string, term: string, table: seq<Course>, c: Course)
    ensures CoursesApi.HandleGet(CoursesPage.FetchParams(category, term), table).Listing?
    ensures c in CoursesApi.HandleGet(CoursesPage.FetchParams(category, term), table).courses <==>
      && c in table && c.isPublished
      && (category != "all" && category != "" ==> c.category == category)
      && (Trim(term) != "" ==> CoursesApi.MatchesSearch(c, term))
  {
  }

  /** The admin translation list shows exactly the rows in the chosen category that, with the toggle on, have a null Chinese value. */
  lemma AdminTranslationQuery(category: string, missingOnly: bool, table: seq<Translation>, t: Translation)
    ensures t in TranslationsApi.HandleGet(AdminTranslations.FetchParams(category, missingOnly), table) <==>
      && t in table
      && (category != "all" && category != "" ==> t.category == Some(category))
      && (missingOnly ==> t.valueZh == None)
  {
  }

  /**
   A translation saved with an empty Chinese value, as the form saves one left
   blank, is counted as missing yet never listed by "Show Missing Only".
   */
  lemma BlankChineseCountedButNotListed(category: string, table: seq<Translation>, t: Translation)
    requires t in table && t.valueZh == Some("")
    ensures AdminTranslations.LacksChinese(t)
    ensures AdminTranslations.MissingCount(table) > 0
    ensures t !in TranslationsApi.HandleGet(AdminTranslations.FetchParams(category, true), table)
  {
    var i :| 0 <= i < |table| && table[i] == t;
  }

  /** The form leaves a blank Chinese value as "", not null. */
  lemma FormSendsEmptyChinese(form: TranslationForm.FormData)
    requires form.valueZh == ""
    ensures TranslationForm.BuildRequest(None, form).body["value_zh"] == JStr("")
  {
  }

  /** Editing a translation through the form updates the row with its id, writing the four form fields. */
  lemma EditedTranslationPatchesItsRow(t: Translation, form: TranslationForm.FormData, a: Auth)
    requires a.session.Some? && t.id != ""
    ensures TranslationsApi.HandlePatch(a, TranslationForm.BuildRequest(Some(t), form).body)
         == TranslationsApi.Updated(JStr(t.id), TranslationForm.FormObject(form))
  {
  }

  /** For an admin, a new translation from the form is created exactly when its key and English value are filled in. */
  lemma NewTranslationAcceptedIffFilled(form: TranslationForm.FormData, a: Auth)
    requires a.session.Some? && RoleRow(a, a.session.value.userId).Some?
    ensures TranslationsApi.HandlePost(a, TranslationForm.BuildRequest(None, form).body).Created?
        <==> form.key != "" && form.valueEn != ""
  {
  }
}

=== FILE: image_upload.dfy ===
/**
 The deterministic parts of src/lib/imageUpload.ts: the checks an upload must
 pass, the storage path a new image receives, and the recovery of that path
 from a public URL.
 */
module ImageUpload {
  import opened Types
  import opened Text

  /** `MAX_SIZE`: 5 MiB in bytes. */
  const MaxSize: nat := 5 * 1024 * 1024

  /** The MIME types an upload may carry. */
  const ValidTypes: seq<string> := ["image/jpeg", "image/jpg", "image/png", "image/webp"]

  /** The storage bucket, and the marker that precedes a path in a public URL. */
  const Bucket: string := "course-images"
  const Marker: string := "course-images/"

  datatype UploadError = TooLarge | BadType {
    /** The message of the error `uploadCourseImage` throws. */
    function Message(): string {
      match this
      case TooLarge => "File size must be less than 5MB"
      case BadType => "File must be a JPEG, PNG, or WebP image"
    }
  }

  /** The two checks in order: size first, then type. `None` means the file is accepted. */
  function Validate(size: int, mime: string): (r: Option<UploadError>)
    ensures r == Some(TooLarge) <==> size > MaxSize
    ensures r == Some(BadType) <==> size <= MaxSize && mime !in ValidTypes
    ensures r == None <==> size <= MaxSize && mime in ValidTypes
  {
    if size > MaxSize then Some(TooLarge)
    else if mime !in ValidTypes then Some(BadType)
    else None
  }

  /** `s.split(sep)` for a one-character separator: the pieces between the separators. */
  function Split(s: string, sep: char): (parts: seq<string>)
    ensures |parts| >= 1
  {
    if |s| == 0 then [""]
    else
      var rest := Split(s[1..], sep);
      if s[0] == sep then [""] + rest
      else [[s[0]] + rest[0]] + rest[1..]
  }

  /** `parts.join(sep)`. */
  function Join(parts: seq<string>, sep: char): string
    requires |parts| >= 1
  {
    if |parts| == 1 then parts[0] else parts[0] + [sep] + Join(parts[1..], sep)
  }

  /** Splitting and joining again gives back the original text. */
  lemma {:induction false} SplitJoin(s: string, sep: char)
    ensures Join(Split(s, sep), sep) == s
  {
    if |s| > 0 {
      var rest := Split(s[1..], sep);
      SplitJoin(s[1..], sep);
      if s[0] == sep {
        assert Split(s, sep)[1..] == rest;
        assert s == [sep] + s[1..];
      } else {
        var parts := Split(s, sep);
        if |rest| == 1 {
          assert parts == [[s[0]] + rest[0]];
          assert s == [s[0]] + s[1..];
        } else {
          assert parts[1..] == rest[1..];
          assert Join(rest, sep) == rest[0] + [sep] + Join(rest[1..], sep);
          assert s == [s[0]] + s[1..];
        }
      }
    }
  }

  /** No piece of a split holds the separator. */
  lemma {:induction false} PiecesLackSeparator(s: string, sep: char)
    ensures forall i :: 0 <= i < |Split(s, sep)| ==> sep !in Split(s, sep)[i]
  {
    if |s| > 0 {
      PiecesLackSeparator(s[1..], sep);
      var rest := Split(s[1..], sep);
      if s[0] != sep {
        assert sep !in [s[0]] + rest[0];
        assert forall i :: 1 <= i < |Split(s, sep)| ==> Split(s, sep)[i] == rest[i];
      } else {
        assert forall i :: 1 <= i < |Split(s, sep)| ==> Split(s, sep)[i] == rest[i - 1];
      }
    }
  }

  /** A join ends with its last piece, and with a separator before it when there are several. */
  lemma {:induction false} JoinEndsWithLast(parts: seq<string>, sep: char)
    requires |parts| >= 1
    ensures EndsWithText(Join(parts, sep), Last(parts))
    ensures |parts| > 1 ==> EndsWithText(Join(parts, sep), [sep] + Last(parts))
  {
    if |parts| > 1 {
      JoinEndsWithLast(parts[1..], sep);
      var tail := Join(parts[1..], sep);
      assert Join(parts, sep) == (parts[0] + [sep]) + tail;
      assert Last(parts[1..]) == Last(parts);
      if |parts| == 2 {
        assert tail == Last(parts);
      }
    }
  }

  /** The last piece of a split is a suffix of the text. */
  lemma LastPieceIsSuffix(s: string, sep: char)
    ensures EndsWithText(s, Last(Split(s, sep)))
  {
    SplitJoin(s, sep);
    JoinEndsWithLast(Split(s, sep), sep);
  }

  /** When the separator occurs, the last piece follows a separator. */
  lemma LastPieceFollowsSeparator(s: string, sep: char)
    requires sep in s
    ensures EndsWithText(s, [sep] + Last(Split(s, sep)))
  {
    var parts := Split(s, sep);
    SplitJoin(s, sep);
    SplitWithoutSeparator(s, sep);
    assert |parts| > 1;
    JoinEndsWithLast(parts, sep);
  }

  /** Text without the separator splits into itself alone. */
  lemma {:induction false} SplitWithoutSeparator(s: string, sep: char)
    ensures sep !in s <==> Split(s, sep) == [s]
  {
    if |s| > 0 {
      SplitWithoutSeparator(s[1..], sep);
      if sep !in s {
        assert s == [s[0]] + s[1..];
      } else {
        PiecesLackSeparator(s, sep);
        assert Split(s, sep)[0] != s;
      }
    }
  }

  function Last<T>(xs: seq<T>): T
    requires |xs| > 0
  {
    xs[|xs| - 1]
  }

  predicate EndsWithText(s: string, suffix: string) {
    |suffix| <= |s| && s[|s| - |suffix|..] == suffix
  }

  /** `originalName.split(".").pop()`: the text after the last ".", or the whole name when it has none. */
  function Extension(name: string): (ext: string)
    ensures '.' !in ext
    ensures EndsWithText(name, ext)
    ensures '.' !in name ==> ext == name
    ensures '.' in name ==> EndsWithText(name, "." + ext)
  {
    LastPieceIsSuffix(name, '.');
    PiecesLackSeparator(name, '.');
    SplitWithoutSeparator(name, '.');
    if '.' in name then LastPieceFollowsSeparator(name, '.'); Last(Split(name, '.'))
    else Last(Split(name, '.'))
  }

  /**
   `generateFileName`: `unique` stands for the `${timestamp}-${random}` part,
   which the source draws from the clock and a random number generator.
   */
  function FileName(originalName: string, unique: string): (name: string)
    ensures StartsWith(name, unique + ".")
    ensures Extension(name) == Extension(originalName)
  {
    ExtensionAfterLastDot(unique, Extension(originalName));
    unique + "." + Extension(originalName)
  }

  /** The object path an accepted upload is stored under: `${courseSlug}/${fileName}`. */
  function StoragePath(courseSlug: string, originalName: string, unique: string): (path: string)
    ensures path == courseSlug + "/" + unique + "." + Extension(originalName)
    ensures StartsWith(path, courseSlug + "/")
  {
    var path := courseSlug + "/" + FileName(originalName, unique);
    assert path == courseSlug + "/" + unique + "." + Extension(originalName);
    path
  }

  /**
   What `uploadCourseImage` hands to storage: the validation error's message,
   or the path the file is uploaded under.
   */
  function PrepareUpload(size: int, mime: string, originalName: string, courseSlug: string, unique: string)
    : (r: Result<string>)
    ensures r.Failure? <==> Validate(size, mime).Some?
    ensures size > MaxSize ==> r == Failure(TooLarge.Message())
    ensures size <= MaxSize && mime !in ValidTypes ==> r == Failure(BadType.Message())
    ensures r.Success? ==> r.value == courseSlug + "/" + unique + "." + Extension(originalName)
  {
    match Validate(size, mime)
    case Some(e) => Failure(e.Message())
    case None => Success(StoragePath(courseSlug, originalName, unique))
  }

  // ---------------------------------------------------------------------
  // extractStoragePath: url.match(/course-images\/(.+)$/)

  /** No character of `s` ends a line, so `.` matches each of them. */
  predicate LineFree(s: string) {
    forall i :: 0 <= i < |s| ==> !IsLineTerminator(s[i])
  }

  /** The pattern matches with its marker at index `i`: `(.+)$` then takes the rest of the input. */
  predicate MatchAt(url: string, i: int) {
    && OccursAt(url, Marker, i)
    && i + |Marker| < |url|
    && LineFree(url[i + |Marker|..])
  }

  /** The leftmost match starting at index `i` or later. */
  function MatchFrom(url: string, i: nat): (r: Option<string>)
    ensures r.Some? <==> exists j | i <= j :: MatchAt(url, j)
    ensures r.Some? ==> exists j | i <= j :: MatchAt(url, j) && r.value == url[j + |Marker|..]
                          && forall k | i <= k < j :: !MatchAt(url, k)
    decreases |url| - i
  {
    if i + |Marker| >= |url| then None
    else if MatchAt(url, i) then Some(url[i + |Marker|..])
    else MatchFrom(url, i + 1)
  }

  /** `extractStoragePath(url)`: the first capture of the pattern, or `null`. */
  function ExtractStoragePath(url: string): (r: Option<string>)
    ensures r.Some? <==> exists j | 0 <= j :: MatchAt(url, j)
    ensures r.Some? ==> |r.value| > 0 && LineFree(r.value)
    ensures r.Some? ==> exists j | 0 <= j :: OccursAt(url, Marker, j) && r.value == url[j + |Marker|..]
                          && forall k | 0 <= k < j :: !MatchAt(url, k)
  {
    MatchFrom(url, 0)
  }

  /**
   For text without line breaks the result is whatever follows the first
   "course-images/", when something does.
   */
  lemma ExtractAfterFirstMarker(url: string, i: nat)
    requires LineFree(url)
    requires OccursAt(url, Marker, i)
    requires forall k | 0 <= k < i :: !OccursAt(url, Marker, k)
    ensures i + |Marker| < |url| ==> ExtractStoragePath(url) == Some(url[i + |Marker|..])
    ensures i + |Marker| == |url| ==> ExtractStoragePath(url) == None
  {
    var tail := url[i + |Marker|..];
    assert LineFree(tail) by {
      assert forall k :: 0 <= k < |tail| ==> tail[k] == url[i + |Marker| + k];
    }
    assert forall k | 0 <= k < i :: !MatchAt(url, k);
    if i + |Marker| < |url| {
      MatchFromSkips(url, 0, i);
    } else {
      forall j | 0 <= j
        ensures !MatchAt(url, j)
      {
        if j < i {
          assert !OccursAt(url, Marker, j);
        } else if j > i {
          assert j + |Marker| > |url|;
        }
      }
    }
  }

  /** Text that does not contain "course-images/" gives `null`. */
  lemma ExtractWithoutMarker(url: string)
    requires !Contains(url, Marker)
    ensures ExtractStoragePath(url) == None
  {
    assert forall j | 0 <= j :: !MatchAt(url, j);
  }

  /**
   An occurrence of "course-images/" in `prefix + "course-images/" + p` that
   starts inside `prefix` must lie wholly inside it: the marker's only "/" is
   its last character.
   */
  lemma NoStraddle(prefix: string, p: string, j: nat)
    requires !Contains(prefix, Marker)
    requires j < |prefix|
    ensures !OccursAt(prefix + Marker + p, Marker, j)
  {
    var url := prefix + Marker + p;
    if j + |Marker| > |url| {
    } else if j + |Marker| <= |prefix| {
      assert prefix[j..j + |Marker|] == url[j..j + |Marker|];
      assert !OccursAt(prefix, Marker, j);
    } else {
      var k := j + |Marker| - 1 - |prefix|;
      assert url[j + |Marker| - 1] == Marker[k];
      assert Marker[k] != '/';
      assert url[j..j + |Marker|][|Marker| - 1] != Marker[|Marker| - 1];
    }
  }

  /** Round trip: the path placed after the bucket's marker in a URL is what comes back. */
  lemma ExtractRoundTrip(prefix: string, p: string)
    requires !Contains(prefix, Marker)
    requires |p| > 0 && LineFree(p)
    ensures ExtractStoragePath(prefix + Marker + p) == Some(p)
  {
    var url := prefix + Marker + p;
    var i := |prefix|;
    forall k | 0 <= k < i
      ensures !MatchAt(url, k)
    {
      NoStraddle(prefix, p, k);
    }
    assert url[i..i + |Marker|] == Marker;
    assert url[i + |Marker|..] == p;
    assert MatchAt(url, i);
    assert MatchFrom(url, 0) == MatchFrom(url, i) by {
      MatchFromSkips(url, 0, i);
    }
  }

  /** Concatenating line-free texts gives a line-free text. */
  lemma LineFreeConcat(a: string, b: string)
    requires LineFree(a) && LineFree(b)
    ensures LineFree(a + b)
  {
    forall i | 0 <= i < |a + b|
      ensures !IsLineTerminator((a + b)[i])
    {
      if i >= |a| {
        assert (a + b)[i] == b[i - |a|];
      }
    }
  }

  /** A suffix of a line-free text is line-free. */
  lemma LineFreeSuffix(s: string, suffix: string)
    requires LineFree(s) && EndsWithText(s, suffix)
    ensures LineFree(suffix)
  {
    forall i | 0 <= i < |suffix|
      ensures !IsLineTerminator(suffix[i])
    {
      assert suffix[i] == s[|s| - |suffix| + i];
    }
  }

  /**
   The path an upload is stored under comes back out of its public URL: with
   a marker-free URL prefix and line-free slug, name and unique part,
   `extractStoragePath` recovers exactly the path `uploadCourseImage` wrote.
   */
  lemma UploadedPathRecovered(prefix: string, courseSlug: string, originalName: string, unique: string)
    requires !Contains(prefix, Marker)
    requires LineFree(courseSlug) && LineFree(originalName) && LineFree(unique)
    ensures ExtractStoragePath(prefix + Marker + StoragePath(courseSlug, originalName, unique))
      == Some(StoragePath(courseSlug, originalName, unique))
  {
    var ext := Extension(originalName);
    LineFreeSuffix(originalName, ext);
    LineFreeConcat(courseSlug, "/");
    LineFreeConcat(courseSlug + "/", unique);
    LineFreeConcat(courseSlug + "/" + unique, ".");
    LineFreeConcat(courseSlug + "/" + unique + ".", ext);
    ExtractRoundTrip(prefix, StoragePath(courseSlug, originalName, unique));
  }

  /** Searching from `i` skips positions before `j` where nothing matches. */
  lemma {:induction false} MatchFromSkips(url: string, i: nat, j: nat)
    requires i <= j
    requires forall k | i <= k < j :: !MatchAt(url, k)
    requires MatchAt(url, j)
    ensures MatchFrom(url, i) == MatchFrom(url, j)
    decreases j - i
  {
    if i < j {
      MatchFromSkips(url, i + 1, j);
    }
  }

  /** A file of exactly 5 MiB is accepted; one byte more is rejected, whatever its type. */
  lemma SizeBoundary()
    ensures Validate(MaxSize, "image/png") == None
    ensures Validate(MaxSize + 1, "text/plain") == Some(TooLarge)
  {
    assert "image/png" in ValidTypes;
  }

  /** The extension is what follows the last dot. */
  lemma ExtensionAfterLastDot(stem: string, ext: string)
    requires '.' !in ext
    ensures Extension(stem + "." + ext) == ext
  {
    var name := stem + "." + ext;
    var e := Extension(name);
    assert name[|name| - |ext| - 1] == '.';
    assert '.' in name;
    DotInLongerSuffix(name, e, ext);
    if |e| > |ext| {
      assert false;
    } else if |e| < |ext| {
      assert false;
    }
    assert name[|name| - |ext|..] == ext;
  }

  /** Of two suffixes of a name, the longer one holds the dot that precedes the shorter. */
  lemma DotInLongerSuffix(name: string, e: string, ext: string)
    requires EndsWithText(name, "." + e) && EndsWithText(name, ext)
    ensures |e| < |ext| ==> '.' in ext
  {
    if |e| < |ext| {
      assert ext[|ext| - |e| - 1] == name[|name| - |e| - 1];
    }
  }

  /** The extension of names with one dot, several dots, and none. */
  lemma ExtensionExamples()
    ensures Extension("photo.jpg") == "jpg"
    ensures Extension("archive.tar.gz") == "gz"
    ensures Extension("README") == "README"
  {
    assert "photo.jpg" == "photo" + "." + "jpg";
    ExtensionAfterLastDot("photo", "jpg");
    assert "archive.tar.gz" == "archive.tar" + "." + "gz";
    ExtensionAfterLastDot("archive.tar", "gz");
    assert '.' !in "README";
  }
}

=== FILE: json.dfy ===
/**
 Parsed JSON request and row bodies, with the JavaScript truthiness the route
 handlers and forms test them by (`!body.key`, `body.x || null`).
 */
module Json {
  import opened Types

  datatype Json =
    | JNull
    | JBool(b: bool)
    | JNum(n: int)
    | JStr(s: string)
    | JArr(items: seq<Json>)
    | JObj(fields: map<string, Json>)

  /** A JSON object; a name it lacks reads as `undefined`. */
  type Object = map<string, Json>

  /** JavaScript truthiness: `null`, `false`, `0` and `""` are falsy, every array and object is truthy. */
  predicate Truthy(j: Json) {
    match j
    case JNull => false
    case JBool(b) => b
    case JNum(n) => n != 0
    case JStr(s) => s != ""
    case JArr(_) => true
    case JObj(_) => true
  }

  /** `o.name` is truthy; `undefined` is not. */
  predicate TruthyField(o: Object, name: string) {
    name in o && Truthy(o[name])
  }

  /** `o.name || otherwise`. */
  function FieldOr(o: Object, name: string, otherwise: Json): (r: Json)
    ensures Truthy(r) || r == otherwise
    ensures Truthy(otherwise) ==> Truthy(r)
    ensures name in o && r != otherwise ==> r == o[name]
  {
    if TruthyField(o, name) then o[name] else otherwise
  }

  /** `o.name || null` never yields a falsy value other than `null`. */
  lemma FieldOrNullIsTruthyOrNull(o: Object, name: string)
    ensures FieldOr(o, name, JNull) == JNull <==> !TruthyField(o, name)
  {
  }

  /** A list of strings as a JSON array. */
  function Strings(xs: seq<string>): (r: Json)
    ensures r.JArr? && |r.items| == |xs|
    ensures forall i :: 0 <= i < |xs| ==> r.items[i] == JStr(xs[i])
  {
    JArr(seq(|xs|, i requires 0 <= i < |xs| => JStr(xs[i])))
  }

  /** A nullable string column as JSON. */
  function Nullable(s: Option<string>): (r: Json)
    ensures r == JNull <==> s == None
    ensures s.Some? ==> r == JStr(s.value)
  {
    match s
    case None => JNull
    case Some(v) => JStr(v)
  }

  /** `const { name, ...rest } = o`: the object without one name. */
  function Without(o: Object, name: string): (r: Object)
    ensures name !in r
    ensures forall k :: k in r <==> k in o && k != name
    ensures forall k :: k in r ==> r[k] == o[k]
  {
    o - {name}
  }
}

=== FILE: language_context.dfy ===
/**
 The language context: the current UI language, how it is restored from and
 saved to browser storage under the key "tcc-language", and the translation
 lookup `t` with its fallback chain.
 */
module LanguageContext {
  import opened Types

  /** The English and Chinese text of one translation key. */
  datatype Entry = Entry(en: string, zh: string) {
    /** `entry[language]`. */
    function In(l: Language): string {
      match l
      case En => en
      case Zh => zh
    }
  }

  /** The built-in translation table. */
  const Translations: map<string, Entry> := map[
    "nav.home" := Entry("Home", "首页"),
    "nav.courses" := Entry("Courses", "课程"),
    "nav.about" := Entry("About", "关于"),
    "nav.contact" := Entry("Contact", "联系我们"),
    "button.learnMore" := Entry("Learn More", "了解更多"),
    "button.submit" := Entry("Submit", "提交"),
    "button.cancel" := Entry("Cancel", "取消"),
    "footer.rights" := Entry("All rights reserved", "版权所有"),
    "salary.entryLevel" := Entry("entry-level", "入门级"),
    "salary.withExperience" := Entry("with experience", "有经验")
  ]

  /** The table holds a non-empty text for `key` in language `l`. */
  predicate HasText(key: string, l: Language) {
    key in Translations && Translations[key].In(l) != ""
  }

  /**
   `t(key, fallback)` in language `l`, an absent fallback being `None`: the
   table's text when there is one, else the fallback when it is non-empty,
   else the key itself.
   */
  function T(l: Language, key: string, fallback: Option<string>): (r: string)
    ensures HasText(key, l) ==> r == Translations[key].In(l)
    ensures key != "" ==> r != ""
    ensures r == key || fallback == Some(r) || (key in Translations && r == Translations[key].In(l))
  {
    if HasText(key, l) then Translations[key].In(l)
    else if fallback.Some? && fallback.value != "" then fallback.value
    else key
  }

  /** Without a table text, `t` answers with the non-empty fallback, and otherwise with the key. */
  lemma FallbackChain(l: Language, key: string, fallback: Option<string>)
    requires !HasText(key, l)
    ensures fallback.Some? && fallback.value != "" ==> T(l, key, fallback) == fallback.value
    ensures fallback == None || fallback == Some("") ==> T(l, key, fallback) == key
  {
  }

  /** Every built-in key has text in both languages, so `t` never falls back for them. */
  lemma BuiltInKeysNeverFallBack(l: Language, key: string, fallback: Option<string>)
    requires key in Translations
    ensures HasText(key, l)
    ensures T(l, key, fallback) == Translations[key].In(l)
  {
  }

  /** The provider's state: the current language and what browser storage holds under its key. */
  datatype State = State(language: Language, stored: Option<string>)

  /** The language before storage has been read. */
  const InitialLanguage: Language := En

  /** The language adopted on mount: the stored value when it is exactly "en" or "zh", otherwise the initial one. */
  function Restore(stored: Option<string>): (l: Language)
    ensures stored == Some("zh") <==> l == Zh
    ensures stored != Some("en") && stored != Some("zh") ==> l == InitialLanguage
  {
    if stored == Some("en") then En
    else if stored == Some("zh") then Zh
    else InitialLanguage
  }

  /** Mounting the provider over the storage contents `stored`. */
  function Mount(stored: Option<string>): (s: State)
    ensures s.stored == stored
    ensures s.language == Restore(stored)
  {
    State(Restore(stored), stored)
  }

  /** `setLanguage(l)`: the state now shows `l`, and storage records its code. */
  function SetLanguage(s: State, l: Language): (r: State)
    ensures r.language == l
    ensures r.stored == Some(LanguageCode(l))
  {
    State(l, Some(LanguageCode(l)))
  }

  /** A chosen language survives a reload: mounting over what `setLanguage` stored restores it. */
  lemma SetLanguageSurvivesReload(s: State, l: Language)
    ensures Mount(SetLanguage(s, l).stored).language == l
  {
  }

  /** A stored code is adopted exactly when it is the code of a language. */
  lemma RestoreAdoptsOnlyCodes(code: string)
    ensures (exists l :: LanguageCode(l) == code) <==> LanguageCode(Restore(Some(code))) == code
  {
    if code == "en" {
      assert LanguageCode(En) == code;
    } else if code == "zh" {
      assert LanguageCode(Zh) == code;
    }
  }
}

=== FILE: middleware.dfy ===
/**
 The request gate in front of the admin pages: which paths it guards and what
 it does for a request without a session or without an `admin_roles` row.
 */
module Middleware {
  import opened Types
  import opened Text
  import opened Supabase

  const LoginPath: string := "/admin/login"

  /** The gate guards paths starting with "/admin", except those starting with "/admin/login". */
  predicate Gated(path: string) {
    StartsWith(path, "/admin") && !StartsWith(path, LoginPath)
  }

  /** What the gate does with a request. */
  datatype Decision =
    | PassThrough
    /** Redirect to the login page, signing the user out first when `signOut` is set. */
    | RedirectToLogin(signOut: bool)

  /**
   The gate: a guarded request without a session is sent to the login page; one
   whose user has no `admin_roles` row is signed out and sent there; any row,
   whatever its role, lets it through, as does every unguarded request.
   */
  function Decide(path: string, a: Auth): (d: Decision)
    ensures !Gated(path) ==> d == PassThrough
    ensures Gated(path) && a.session == None ==> d == RedirectToLogin(false)
    ensures Gated(path) && a.session.Some? ==> (d == PassThrough <==> RoleRow(a, a.session.value.userId).Some?)
    ensures Gated(path) && a.session.Some? && RoleRow(a, a.session.value.userId).None? ==> d == RedirectToLogin(true)
    ensures d.RedirectToLogin? && d.signOut ==> a.session.Some?
  {
    if !Gated(path) then PassThrough
    else match a.session
      case None => RedirectToLogin(false)
      case Some(s) => if RoleRow(a, s.userId).None? then RedirectToLogin(true) else PassThrough
  }

  /** The redirect target is not guarded, so a redirected request is never redirected again. */
  lemma LoginPageNeverRedirects(a: Auth)
    ensures !Gated(LoginPath)
    ensures Decide(LoginPath, a) == PassThrough
  {
  }

  /** The gate checks prefixes, not path segments. */
  lemma GateExamples()
    ensures !Gated("/admin/login-x")
    ensures Gated("/admin/dashboard")
    ensures !Gated("/courses")
  {
    var loginLike, dashboard, home := "/admin/login-x", "/admin/dashboard", "/courses";
    assert LoginPath <= loginLike;
    assert "/admin" <= dashboard && !(LoginPath <= dashboard) by {
      assert dashboard[7] != LoginPath[7];
    }
    assert home[1] != '/' && home[1] != "/admin"[1];
  }

  /** Whoever `isAdmin` accepts, the gate lets through. */
  lemma AdminsPassTheGate(path: string, a: Auth)
    requires IsAdmin(a)
    ensures Decide(path, a) == PassThrough
  {
  }

  /**
   The gate is laxer than `isAdmin`: a signed-in user whose row holds any other
   role passes the gate although `isAdmin` refuses them.
   */
  lemma GateAdmitsAnyRole(path: string, a: Auth, s: Session)
    requires !a.sessionError && a.session == Some(s) && !a.roleLookupError
    requires s.userId != "" && s.userId in a.roles && !IsAdminRole(a.roles[s.userId])
    ensures Decide(path, a) == PassThrough
    ensures !IsAdmin(a)
  {
  }
}

=== FILE: query.dfy ===
/**
 The query string of a request, as `URLSearchParams` builds it on the client
 with `append` and the route handler reads it back with `get`.
 */
module Query {
  import opened Types

  datatype Param = Param(name: string, value: string)

  /** The parameters in the order they were appended. */
  type Params = seq<Param>

  /** `searchParams.get(name)`: the value of the first parameter so named, or `null`. */
  function Get(ps: Params, name: string): (r: Option<string>)
    ensures r == None <==> forall i :: 0 <= i < |ps| ==> ps[i].name != name
    ensures r.Some? ==> exists i :: 0 <= i < |ps| && ps[i] == Param(name, r.value)
  {
    if |ps| == 0 then None
    else if ps[0].name == name then Some(ps[0].value)
    else
      var r := Get(ps[1..], name);
      assert forall i :: 1 <= i < |ps| ==> ps[1..][i - 1] == ps[i];
      r
  }

  /** `params.append(name, value)` when `cond` holds. */
  function AppendIf(ps: Params, cond: bool, name: string, value: string): (r: Params)
    ensures cond ==> r == ps + [Param(name, value)]
    ensures !cond ==> r == ps
  {
    if cond then ps + [Param(name, value)] else ps
  }

  /** Appending leaves the lookup of every earlier name as it was, and makes a new name visible. */
  lemma {:induction false} GetAfterAppend(ps: Params, name: string, value: string, asked: string)
    ensures Get(ps + [Param(name, value)], asked) ==
      if Get(ps, asked).Some? then Get(ps, asked)
      else if asked == name then Some(value)
      else None
  {
    if |ps| > 0 {
      assert (ps + [Param(name, value)])[1..] == ps[1..] + [Param(name, value)];
      GetAfterAppend(ps[1..], name, value, asked);
    }
  }
}

=== FILE: seqs.dfy ===
/**
 `Array.prototype.filter` and the ordering a database `order by` clause
 produces, over Dafny sequences.
 */
module Seqs {

  /** `a` is `b` with some elements dropped, the rest kept in their order. */
  ghost predicate IsSubsequence<T>(a: seq<T>, b: seq<T>)
    decreases |b|
  {
    || |a| == 0
    || (|b| > 0 && ((a[0] == b[0] && IsSubsequence(a[1..], b[1..])) || IsSubsequence(a, b[1..])))
  }

  /** `s.filter(p)`: the elements satisfying `p`, in their original order. */
  function Filter<T(==)>(s: seq<T>, p: T -> bool): (r: seq<T>)
    ensures |r| <= |s|
    ensures forall x :: x in r ==> x in s && p(x)
    ensures forall x :: x in s && p(x) ==> x in r
    ensures IsSubsequence(r, s)
  {
    if |s| == 0 then []
    else if p(s[0]) then [s[0]] + Filter(s[1..], p)
    else Filter(s[1..], p)
  }

  /** The filter keeps every passing element as often as it occurs, and no other. */
  lemma {:induction false} FilterMultiplicity<T>(s: seq<T>, p: T -> bool)
    ensures forall x :: multiset(Filter(s, p))[x] == if p(x) then multiset(s)[x] else 0
  {
    if |s| > 0 {
      FilterMultiplicity(s[1..], p);
      assert s == [s[0]] + s[1..];
    }
  }

  /** Filtering keeps the whole sequence exactly when every element passes. */
  lemma {:induction false} FilterKeepsAllIff<T>(s: seq<T>, p: T -> bool)
    ensures Filter(s, p) == s <==> forall i :: 0 <= i < |s| ==> p(s[i])
  {
    if |s| > 0 {
      FilterKeepsAllIff(s[1..], p);
      assert forall i :: 1 <= i < |s| ==> s[1..][i - 1] == s[i];
      if p(s[0]) {
        assert Filter(s, p) == [s[0]] + Filter(s[1..], p);
        assert s == [s[0]] + s[1..];
      }
    }
  }

  /** Filtering a sequence grown by one element grows the result by that element exactly when it passes. */
  lemma {:induction false} FilterAppend<T>(s: seq<T>, x: T, p: T -> bool)
    ensures Filter(s + [x], p) == Filter(s, p) + (if p(x) then [x] else [])
  {
    if |s| > 0 {
      assert (s + [x])[1..] == s[1..] + [x];
      FilterAppend(s[1..], x, p);
    } else {
      assert s + [x] == [x];
    }
  }

  /** Number of elements satisfying `p`: `s.filter(p).length`. */
  function CountWhere<T(==)>(s: seq<T>, p: T -> bool): (n: nat)
    ensures n <= |s|
    ensures n == 0 <==> forall i :: 0 <= i < |s| ==> !p(s[i])
    ensures n == |s| <==> forall i :: 0 <= i < |s| ==> p(s[i])
    ensures n == |Filter(s, p)|
  {
    FilterEmptyIffNonePass(s, p);
    FilterKeepsAllIff(s, p);
    if |Filter(s, p)| == |s| then FilterFullLength(s, p); |s| else |Filter(s, p)|
  }

  /** Counting over a sequence grown by one element adds one exactly when that element passes. */
  lemma CountWhereAppend<T>(s: seq<T>, x: T, p: T -> bool)
    ensures CountWhere([], p) == 0
    ensures CountWhere(s + [x], p) == CountWhere(s, p) + (if p(x) then 1 else 0)
  {
    FilterAppend(s, x, p);
  }

  /** The filter comes out empty exactly when no element passes. */
  lemma FilterEmptyIffNonePass<T>(s: seq<T>, p: T -> bool)
    ensures Filter(s, p) == [] <==> forall i :: 0 <= i < |s| ==> !p(s[i])
  {
    var r := Filter(s, p);
    if r != [] {
      assert r[0] in r;
    }
    if exists i :: 0 <= i < |s| && p(s[i]) {
      var i :| 0 <= i < |s| && p(s[i]);
      assert s[i] in s;
    }
  }

  /** A filter that keeps as many elements as it was given keeps all of them. */
  lemma {:induction false} FilterFullLength<T>(s: seq<T>, p: T -> bool)
    requires |Filter(s, p)| == |s|
    ensures Filter(s, p) == s
  {
    if |s| > 0 && p(s[0]) {
      FilterFullLength(s[1..], p);
    }
  }

  /** `le` orders any two elements one way or the other. */
  ghost predicate Total<T(!new)>(le: (T, T) -> bool) {
    forall a, b :: le(a, b) || le(b, a)
  }

  /** Each element is `le` its successor. */
  ghost predicate SortedBy<T>(s: seq<T>, le: (T, T) -> bool) {
    forall i :: 0 <= i < |s| - 1 ==> le(s[i], s[i + 1])
  }

  /** Inserts `x` before the first element it is `le`, keeping `s` sorted. */
  function InsertBy<T(!new)>(x: T, s: seq<T>, le: (T, T) -> bool): (r: seq<T>)
    requires Total(le)
    requires SortedBy(s, le)
    ensures multiset(r) == multiset(s) + multiset{x}
    ensures |r| == |s| + 1
    ensures r[0] == x || (|s| > 0 && r[0] == s[0])
    ensures SortedBy(r, le)
  {
    if |s| == 0 || le(x, s[0]) then [x] + s
    else
      var rest := InsertBy(x, s[1..], le);
      assert s == [s[0]] + s[1..];
      [s[0]] + rest
  }

  /**
   A stable insertion sort: the order a database returns for `order by` on a
   key, with rows of equal key left in table order.
   */
  function SortBy<T(!new)>(s: seq<T>, le: (T, T) -> bool): (r: seq<T>)
    requires Total(le)
    ensures multiset(r) == multiset(s)
    ensures |r| == |s|
    ensures SortedBy(r, le)
  {
    if |s| == 0 then []
    else
      assert s == [s[0]] + s[1..];
      InsertBy(s[0], SortBy(s[1..], le), le)
  }
}

=== FILE: supabase.dfy ===
/**
 What the authentication backend and the `admin_roles` table tell the site
 about the current user, and the browser-side `getSession` and `isAdmin`
 built on them.
 */
module Supabase {
  import opened Types

  /**
   The backend's answers for one request: the session the auth call returns
   and whether it reported an error, the `admin_roles` table, and whether
   looking a user up in it fails.
   */
  datatype Auth = Auth(session: Option<Session>, sessionError: bool, roles: AdminRoles, roleLookupError: bool)

  /** `getSession()`: `null` when the auth call reports an error, the session otherwise. */
  function GetSession(a: Auth): (r: Option<Session>)
    ensures a.sessionError ==> r == None
    ensures !a.sessionError ==> r == a.session
  {
    if a.sessionError then None else a.session
  }

  /** A user's `admin_roles` row, as `.single()` yields it: `null` when the lookup fails or finds none. */
  function RoleRow(a: Auth, userId: string): (r: Option<string>)
    ensures r.Some? <==> !a.roleLookupError && userId in a.roles
    ensures r.Some? ==> r.value == a.roles[userId]
  {
    if !a.roleLookupError && userId in a.roles then Some(a.roles[userId]) else None
  }

  /** The roles `isAdmin` accepts. */
  predicate IsAdminRole(role: string) {
    role == "admin" || role == "editor"
  }

  /**
   `isAdmin()`: false without a session or with an empty user id, false when
   the role lookup fails or finds no row, and otherwise whether the role is
   "admin" or "editor".
   */
  function IsAdmin(a: Auth): (r: bool)
    ensures GetSession(a) == None ==> !r
    ensures GetSession(a).Some? && GetSession(a).value.userId == "" ==> !r
    ensures r <==> exists s :: GetSession(a) == Some(s) && s.userId != "" && RoleRow(a, s.userId).Some? && IsAdminRole(RoleRow(a, s.userId).value)
  {
    match GetSession(a)
    case None => false
    case Some(s) =>
      if s.userId == "" then false
      else match RoleRow(a, s.userId)
        case None => false
        case Some(role) => IsAdminRole(role)
  }

  /** A failed role lookup denies admin rights whatever the table holds. */
  lemma LookupErrorDenies(a: Auth)
    requires a.roleLookupError
    ensures !IsAdmin(a)
  {
  }

  /** A user whose row holds any role other than "admin" or "editor" is not an admin. */
  lemma OtherRolesDenied(a: Auth, s: Session)
    requires GetSession(a) == Some(s) && s.userId in a.roles
    requires !IsAdminRole(a.roles[s.userId])
    ensures !IsAdmin(a)
  {
  }
}

=== FILE: text.dfy ===
/**
 The JavaScript string built-ins the site relies on, stated over `seq<char>`:
 `toLowerCase` (ASCII letters only), `trim` and the regular-expression class
 `\s` (the full ECMAScript white-space and line-terminator list),
 `includes`, `startsWith`, and decimal rendering of a count.
 */
module Text {

  /** ECMAScript WhiteSpace or LineTerminator: what `trim` removes and `\s` matches. */
  predicate IsSpace(c: char) {
    if c < '\U{80}' then ('\t' <= c <= '\r') || c == ' ' else IsWideSpace(c)
  }

  /** The white space outside ASCII: no-break space, the Unicode space separators, U+2028, U+2029, U+FEFF. */
  predicate IsWideSpace(c: char) {
    || c == '\U{A0}' || c == '\U{1680}' || ('\U{2000}' <= c <= '\U{200A}')
    || c == '\U{2028}' || c == '\U{2029}' || c == '\U{202F}' || c == '\U{205F}'
    || c == '\U{3000}' || c == '\U{FEFF}'
  }

  /** ECMAScript LineTerminator: the characters a regular-expression `.` does not match. */
  predicate IsLineTerminator(c: char) {
    c == '\n' || c == '\r' || c == '\U{2028}' || c == '\U{2029}'
  }

  predicate IsAsciiUpper(c: char) {
    'A' <= c <= 'Z'
  }

  predicate IsAsciiLower(c: char) {
    'a' <= c <= 'z'
  }

  predicate IsDigit(c: char) {
    '0' <= c <= '9'
  }

  /** An ASCII letter or digit. */
  predicate IsAlnum(c: char) {
    IsAsciiUpper(c) || IsAsciiLower(c) || IsDigit(c)
  }

  /** `toLowerCase` of one character, restricted to the ASCII letters. */
  function LowerChar(c: char): (r: char)
    ensures !IsAsciiUpper(r)
    ensures IsAsciiUpper(c) ==> IsAsciiLower(r) && r as int == c as int + 32
    ensures !IsAsciiUpper(c) ==> r == c
    ensures IsAlnum(r) <==> IsAlnum(c)
  {
    if IsAsciiUpper(c) then (c as int + 32) as char else c
  }

  /** `toLowerCase`, restricted to the ASCII letters. */
  function Lower(s: string): (r: string)
    ensures |r| == |s| && HasNoUpper(r)
    ensures forall i :: 0 <= i < |s| ==> r[i] == LowerChar(s[i])
  {
    seq(|s|, i requires 0 <= i < |s| => LowerChar(s[i]))
  }

  predicate HasNoUpper(s: string) {
    forall i :: 0 <= i < |s| ==> !IsAsciiUpper(s[i])
  }

  /** Lowering is idempotent: text without upper-case letters is left unchanged. */
  lemma LowerFixesLowerCase(s: string)
    requires HasNoUpper(s)
    ensures Lower(s) == s
  {
  }

  /** Lowering works character by character, so it distributes over concatenation. */
  lemma LowerConcat(a: string, b: string)
    ensures Lower(a + b) == Lower(a) + Lower(b)
  {
    assert forall i :: 0 <= i < |a| + |b| ==> (Lower(a) + Lower(b))[i] == LowerChar((a + b)[i]);
  }

  /** Length of the run of characters satisfying `p` at the front of `s`. */
  function LeadingRun(s: string, p: char -> bool): (k: nat)
    ensures k <= |s|
    ensures forall i :: 0 <= i < k ==> p(s[i])
    ensures k < |s| ==> !p(s[k])
  {
    if |s| > 0 && p(s[0]) then 1 + LeadingRun(s[1..], p) else 0
  }

  /** Where the run of characters satisfying `p` at the back of `s` starts. */
  function TrailingRunStart(s: string, p: char -> bool): (k: nat)
    ensures k <= |s|
    ensures forall i :: k <= i < |s| ==> p(s[i])
    ensures k > 0 ==> !p(s[k - 1])
  {
    if |s| > 0 && p(s[|s| - 1]) then TrailingRunStart(s[..|s| - 1], p) else |s|
  }

  /** `trimStart`: drops the leading white space. */
  function TrimStart(s: string): string {
    s[LeadingRun(s, IsSpace)..]
  }

  /** `trimEnd`: drops the trailing white space. */
  function TrimEnd(s: string): string {
    s[..TrailingRunStart(s, IsSpace)]
  }

  /** `trim`: drops white space at both ends. */
  function Trim(s: string): string {
    TrimEnd(TrimStart(s))
  }

  /**
   `r` is the slice of `s` starting at `i`, neither starting nor ending with
   white space, and everything of `s` outside it is white space.
   */
  ghost predicate TrimmedSliceAt(s: string, r: string, i: int) {
    && 0 <= i <= |s| - |r| && r == s[i..i + |r|]
    && (forall k :: 0 <= k < i ==> IsSpace(s[k]))
    && (forall k :: i + |r| <= k < |s| ==> IsSpace(s[k]))
    && (|r| > 0 ==> !IsSpace(r[0]) && !IsSpace(r[|r| - 1]))
  }

  /** `r` is what trimming `s` must give: `s` with only white space cut from its ends. */
  ghost predicate IsTrimOf(r: string, s: string) {
    exists i :: TrimmedSliceAt(s, r, i)
  }

  /** What `trim` returns, stated without the recursion. */
  lemma TrimIsSlice(s: string)
    ensures IsTrimOf(Trim(s), s)
  {
    var t := TrimStart(s);
    var r := TrimEnd(t);
    var i := |s| - |t|;
    assert r == s[i..i + |r|];
    if |r| > 0 {
      assert r[0] == t[0];
    }
    assert forall k :: 0 <= k < i ==> IsSpace(s[k]);
    forall k | i + |r| <= k < |s|
      ensures IsSpace(s[k])
    {
      assert s[k] == t[k - i];
    }
    assert TrimmedSliceAt(s, Trim(s), i);
  }

  /** A string is blank when `trim` leaves nothing: it is all white space. */
  lemma TrimEmptyIffBlank(s: string)
    ensures Trim(s) == "" <==> forall k :: 0 <= k < |s| ==> IsSpace(s[k])
  {
    TrimIsSlice(s);
    if forall k :: 0 <= k < |s| ==> IsSpace(s[k]) {
      var t := TrimStart(s);
    }
  }

  /** `Trim` leaves text that neither starts nor ends with white space unchanged. */
  lemma TrimFixesTrimmed(s: string)
    requires |s| > 0 ==> !IsSpace(s[0]) && !IsSpace(s[|s| - 1])
    ensures Trim(s) == s
  {
  }

  /** Trimming cuts characters away and adds none: text without upper-case letters stays so. */
  lemma TrimKeepsNoUpper(s: string)
    requires HasNoUpper(s)
    ensures HasNoUpper(Trim(s))
  {
    var t := TrimStart(s);
    assert HasNoUpper(t) by {
      forall i | 0 <= i < |t|
        ensures !IsAsciiUpper(t[i])
      {
        assert t[i] == s[i + |s| - |t|];
      }
    }
  }

  /** `needle` occurs in `hay` starting at index `i`. */
  predicate OccursAt(hay: string, needle: string, i: int) {
    0 <= i && i + |needle| <= |hay| && hay[i..i + |needle|] == needle
  }

  /** `hay.includes(needle)`. */
  predicate Contains(hay: string, needle: string) {
    exists i | 0 <= i <= |hay| - |needle| :: OccursAt(hay, needle, i)
  }

  /** Every string includes the empty string. */
  lemma ContainsEmpty(hay: string)
    ensures Contains(hay, "")
  {
    assert OccursAt(hay, "", 0);
  }

  /** A string includes itself. */
  lemma ContainsSelf(hay: string)
    ensures Contains(hay, hay)
  {
    assert OccursAt(hay, hay, 0);
  }

  /** `toLowerCase().includes(term.toLowerCase())`, restricted to ASCII letters. */
  predicate ContainsIgnoringCase(hay: string, term: string) {
    Contains(Lower(hay), Lower(term))
  }

  /** `s.startsWith(prefix)`. */
  predicate StartsWith(s: string, prefix: string) {
    prefix <= s
  }

  /** `pat` occurs in `s` at index `i` when ASCII case is ignored. */
  predicate MatchesAtIgnoringCase(s: string, pat: string, i: int) {
    0 <= i && i + |pat| <= |s| && Lower(s[i..i + |pat|]) == Lower(pat)
  }

  /**
   `s.replace(/pat/gi, rep)` for a pattern of literal ASCII characters:
   scanning from the left, every case-insensitive match not overlapping an
   earlier one becomes `rep`.
   */
  function ReplaceAllIgnoringCase(s: string, pat: string, rep: string): (r: string)
    requires |pat| > 0
    ensures (forall i :: !MatchesAtIgnoringCase(s, pat, i)) ==> r == s
    decreases |s|
  {
    if |s| < |pat| then s
    else if Lower(s[..|pat|]) == Lower(pat) then
      assert MatchesAtIgnoringCase(s, pat, 0);
      rep + ReplaceAllIgnoringCase(s[|pat|..], pat, rep)
    else
      var rest := ReplaceAllIgnoringCase(s[1..], pat, rep);
      assert (forall i :: !MatchesAtIgnoringCase(s, pat, i)) ==> (forall i :: !MatchesAtIgnoringCase(s[1..], pat, i)) by {
        forall i | MatchesAtIgnoringCase(s[1..], pat, i)
          ensures MatchesAtIgnoringCase(s, pat, i + 1)
        {
          assert s[1..][i..i + |pat|] == s[i + 1..i + 1 + |pat|];
        }
      }
      [s[0]] + rest
  }

  /** Dropping the first character of a match-free prefix leaves a match-free prefix. */
  lemma NoMatchInTail(a: string, b: string, pat: string)
    requires |a| > 0
    requires forall i :: 0 <= i < |a| ==> !MatchesAtIgnoringCase(a + b, pat, i)
    ensures forall i :: 0 <= i < |a| - 1 ==> !MatchesAtIgnoringCase(a[1..] + b, pat, i)
  {
    forall i | 0 <= i < |a| - 1
      ensures !MatchesAtIgnoringCase(a[1..] + b, pat, i)
    {
      assert !MatchesAtIgnoringCase(a + b, pat, i + 1);
      if 0 <= i && i + |pat| <= |a[1..] + b| {
        assert (a[1..] + b)[i..i + |pat|] == (a + b)[i + 1..i + 1 + |pat|];
      }
    }
  }

  /** Where no match starts, replacement keeps the first character and moves on. */
  lemma ReplaceSkipsNonMatch(s: string, pat: string, rep: string)
    requires |pat| > 0 && |s| > 0
    requires !MatchesAtIgnoringCase(s, pat, 0)
    ensures ReplaceAllIgnoringCase(s, pat, rep) == [s[0]] + ReplaceAllIgnoringCase(s[1..], pat, rep)
  {
    if |s| >= |pat| {
      assert s[..|pat|] == s[0..0 + |pat|];
    }
  }

  /** Putting back the first character of `a` in front of the rest of `a + t` gives `a + t`. */
  lemma ConsConcat(a: string, t: string)
    requires |a| > 0
    ensures [a[0]] + (a[1..] + t) == a + t
  {
    assert a == [a[0]] + a[1..];
  }

  /** Replacement copies a prefix in which no match starts and carries on after it. */
  lemma {:induction false} ReplaceAfterMatchFreePrefix(a: string, b: string, pat: string, rep: string)
    requires |pat| > 0
    requires forall i :: 0 <= i < |a| ==> !MatchesAtIgnoringCase(a + b, pat, i)
    ensures ReplaceAllIgnoringCase(a + b, pat, rep) == a + ReplaceAllIgnoringCase(b, pat, rep)
    decreases |a|
  {
    if |a| == 0 {
      assert a + b == b;
    } else {
      var s := a + b;
      ReplaceSkipsNonMatch(s, pat, rep);
      assert s[1..] == a[1..] + b;
      NoMatchInTail(a, b, pat);
      ReplaceAfterMatchFreePrefix(a[1..], b, pat, rep);
      ConsConcat(a, ReplaceAllIgnoringCase(b, pat, rep));
    }
  }

  /** A match at the very start is replaced, and replacement carries on after it. */
  lemma ReplaceAtMatch(v: string, b: string, pat: string, rep: string)
    requires |pat| > 0
    requires Lower(v) == Lower(pat)
    ensures ReplaceAllIgnoringCase(v + b, pat, rep) == rep + ReplaceAllIgnoringCase(b, pat, rep)
  {
    var s := v + b;
    assert |v| == |pat|;
    assert s[..|pat|] == v;
    assert s[|pat|..] == b;
  }

  /**
   The leftmost match is replaced: text before it that holds no match is
   kept, the match becomes `rep`, and the rest is replaced in turn.
   */
  lemma ReplaceLeftmostMatch(a: string, v: string, b: string, pat: string, rep: string)
    requires |pat| > 0
    requires forall i :: 0 <= i < |a| ==> !MatchesAtIgnoringCase(a + v + b, pat, i)
    requires Lower(v) == Lower(pat)
    ensures ReplaceAllIgnoringCase(a + v + b, pat, rep) == a + rep + ReplaceAllIgnoringCase(b, pat, rep)
  {
    assert a + v + b == a + (v + b);
    ReplaceAfterMatchFreePrefix(a, v + b, pat, rep);
    ReplaceAtMatch(v, b, pat, rep);
  }

  /** No match can start at a character that differs, case ignored, from the pattern's first. */
  lemma NoMatchBeforeFirstChar(a: string, b: string, pat: string)
    requires |pat| > 0
    requires forall k :: 0 <= k < |a| ==> LowerChar(a[k]) != LowerChar(pat[0])
    ensures forall i :: 0 <= i < |a| ==> !MatchesAtIgnoringCase(a + b, pat, i)
  {
    forall i | 0 <= i < |a|
      ensures !MatchesAtIgnoringCase(a + b, pat, i)
    {
      if i + |pat| <= |a + b| {
        var w := (a + b)[i..i + |pat|];
        assert w[0] == a[i];
        assert Lower(w)[0] != Lower(pat)[0];
      }
    }
  }

  /**
   Replacing a pattern by itself changes nothing when every case-insensitive
   match is already spelled exactly as the pattern.
   */
  lemma {:induction false} ReplaceBySelfKeepsExactText(s: string, pat: string)
    requires |pat| > 0
    requires forall i :: MatchesAtIgnoringCase(s, pat, i) ==> s[i..i + |pat|] == pat
    ensures ReplaceAllIgnoringCase(s, pat, pat) == s
  {
    if |s| >= |pat| {
      if Lower(s[..|pat|]) == Lower(pat) {
        assert MatchesAtIgnoringCase(s, pat, 0);
        var t := s[|pat|..];
        forall i | MatchesAtIgnoringCase(t, pat, i)
          ensures t[i..i + |pat|] == pat
        {
          assert t[i..i + |pat|] == s[i + |pat|..i + 2 * |pat|];
          assert MatchesAtIgnoringCase(s, pat, i + |pat|);
        }
        ReplaceBySelfKeepsExactText(t, pat);
        assert s == s[..|pat|] + t;
      } else {
        var t := s[1..];
        forall i | MatchesAtIgnoringCase(t, pat, i)
          ensures t[i..i + |pat|] == pat
        {
          assert t[i..i + |pat|] == s[i + 1..i + 1 + |pat|];
          assert MatchesAtIgnoringCase(s, pat, i + 1);
        }
        ReplaceBySelfKeepsExactText(t, pat);
        assert s == [s[0]] + t;
      }
    }
  }

  /** `a` sorts before or equal to `b` by code points, as the "C" collation orders text. */
  predicate LexLe(a: string, b: string) {
    |a| == 0 || (|b| > 0 && (a[0] < b[0] || (a[0] == b[0] && LexLe(a[1..], b[1..]))))
  }

  /** Any two strings are ordered one way or the other. */
  lemma {:induction false} LexLeTotal(a: string, b: string)
    ensures LexLe(a, b) || LexLe(b, a)
  {
    if |a| > 0 && |b| > 0 && a[0] == b[0] {
      LexLeTotal(a[1..], b[1..]);
    }
  }

  function DigitChar(d: nat): (c: char)
    requires d < 10
    ensures IsDigit(c)
  {
    ('0' as int + d) as char
  }

  /** Decimal rendering of a count, as a template literal shows a number. */
  function NatToString(n: nat): (r: string)
    ensures |r| > 0
    ensures forall i :: 0 <= i < |r| ==> IsDigit(r[i])
    ensures |r| > 1 ==> r[0] != '0'
    ensures n < 10 ==> r == [DigitChar(n)]
  {
    if n < 10 then [DigitChar(n)] else NatToString(n / 10) + [DigitChar(n % 10)]
  }
}

=== FILE: translation_form.dfy ===
/**
 The admin translation form: the fields it starts from, the request it sends
 to the translations route, and what it does with the answer.
 */
module TranslationForm {
  import opened Types
  import opened Json

  /** The form state; every field is a plain string. */
  datatype FormData = FormData(key: string, valueEn: string, valueZh: string, category: string)

  /**
   The starting state: empty fields and category "common" for a new
   translation; an existing one keeps its values, a missing Chinese value
   reading as "" and a missing or empty category as "common".
   */
  function Initial(t: Option<Translation>): (r: FormData)
    ensures t == None ==> r == FormData("", "", "", "common")
    ensures t.Some? ==> r.key == t.value.key && r.valueEn == t.value.valueEn
    ensures t.Some? ==> r.valueZh == t.value.valueZh.GetOr("")
    ensures r.category != ""
    ensures t.Some? && t.value.category.Some? && t.value.category.value != "" ==> r.category == t.value.category.value
    ensures t.Some? && t.value.category.GetOr("") == "" ==> r.category == "common"
  {
    match t
    case None => FormData("", "", "", "common")
    case Some(tr) =>
      var category := tr.category.GetOr("");
      FormData(tr.key, tr.valueEn, tr.valueZh.GetOr(""), if category == "" then "common" else category)
  }

  /** `formData` as the JSON object it is serialised to. */
  function FormObject(form: FormData): (o: Object)
    ensures o.Keys == {"key", "value_en", "value_zh", "category"}
    ensures o["key"] == JStr(form.key) && o["value_en"] == JStr(form.valueEn)
    ensures o["value_zh"] == JStr(form.valueZh) && o["category"] == JStr(form.category)
  {
    map["key" := JStr(form.key), "value_en" := JStr(form.valueEn), "value_zh" := JStr(form.valueZh), "category" := JStr(form.category)]
  }

  /**
   Opening a translation whose Chinese value and category are set and sending
   the form unedited PATCHes the row with exactly the values it was read with.
   */
  lemma UnchangedEditSendsStoredValues(t: Translation)
    requires t.valueZh.Some? && t.category.Some? && t.category.value != ""
    ensures Without(BuildRequest(Some(t), Initial(Some(t))).body, "id") ==
      map["key" := JStr(t.key), "value_en" := JStr(t.valueEn), "value_zh" := JStr(t.valueZh.value), "category" := JStr(t.category.value)]
    ensures BuildRequest(Some(t), Initial(Some(t))).body["id"] == JStr(t.id)
  {
  }

  datatype Method = Patch | Post

  /** A request to the translations route. */
  datatype Request = Request(verb: Method, body: Object)

  /**
   The request `handleSubmit` sends: a PATCH with `{ id, ...formData }` when
   editing, a POST with `formData` alone when creating.
   */
  function BuildRequest(t: Option<Translation>, form: FormData): (r: Request)
    ensures r.verb == Patch <==> t.Some?
    ensures t.Some? ==> "id" in r.body && r.body["id"] == JStr(t.value.id)
    ensures t == None ==> "id" !in r.body
    ensures Without(r.body, "id") == FormObject(form)
  {
    match t
    case Some(tr) => Request(Patch, map["id" := JStr(tr.id)] + FormObject(form))
    case None => Request(Post, FormObject(form))
  }

  /** What the form does after the response arrives, in order. */
  datatype Effect = ToastSuccess(text: string) | ToastError(text: string) | CallOnSuccess | CallOnClose

  /** The message of the error thrown for a failed response: the server's `error` text, or the default. */
  function ErrorMessage(data: Object, default: string): (m: string)
    requires default != ""
    ensures m != ""
    ensures TruthyField(data, "error") && data["error"].JStr? ==> m == data["error"].s
  {
    if TruthyField(data, "error") && data["error"].JStr? then data["error"].s else default
  }

  /** `error.message || "Failed to save translation"`. */
  function ToastText(message: string): (r: string)
    ensures message != "" ==> r == message
  {
    if message != "" then message else "Failed to save translation"
  }

  /**
   The effects of a response with status OK `ok` and body `data`: on success a
   toast, then `onSuccess`, then `onClose`; on failure only an error toast.
   */
  function AfterResponse(editing: bool, ok: bool, data: Object): (es: seq<Effect>)
    ensures ok ==> |es| == 3 && es[1] == CallOnSuccess && es[2] == CallOnClose
    ensures ok ==> es[0] == ToastSuccess(if editing then "Translation updated successfully" else "Translation created successfully")
    ensures !ok ==> |es| == 1 && es[0].ToastError?
    ensures CallOnSuccess in es <==> ok
    ensures CallOnClose in es <==> ok
  {
    if ok then
      [ToastSuccess(if editing then "Translation updated successfully" else "Translation created successfully"), CallOnSuccess, CallOnClose]
    else
      var m := ErrorMessage(data, if editing then "Failed to update translation" else "Failed to create translation");
      [ToastError(ToastText(m))]
  }

  /**
   The generic "Failed to save translation" toast never appears for a failed
   response: the thrown message is never empty.
   */
  lemma FailureToastNamesTheCause(editing: bool, data: Object)
    ensures AfterResponse(editing, false, data)[0].text ==
      if TruthyField(data, "error") && data["error"].JStr? then data["error"].s
      else if editing then "Failed to update translation" else "Failed to create translation"
  {
  }
}

=== FILE: translations_api.dfy ===
/**
 The translations route: GET lists translations under the query's filters,
 POST creates one for an admin, PATCH updates one by id for any signed-in
 user.
 */
module TranslationsApi {
  import opened Types
  import opened Json
  import opened Query
  import opened Supabase
  import Seqs

  /** The category filter is on when the parameter is present, non-empty and not "all". */
  predicate CategoryActive(ps: Params) {
    Get(ps, "category").Some? && Get(ps, "category").value != "" && Get(ps, "category").value != "all"
  }

  /** The missing-only filter is on when the parameter is exactly "true". */
  predicate MissingOnly(ps: Params) {
    Get(ps, "missingOnly") == Some("true")
  }

  /** The conditions the query puts on a row; the missing-only filter asks for a null Chinese value. */
  predicate Listed(ps: Params, t: Translation) {
    && (CategoryActive(ps) ==> t.category == Some(Get(ps, "category").value))
    && (MissingOnly(ps) ==> t.valueZh == None)
  }

  /** Newest first: descending `created_at`. */
  predicate NewestFirst(a: Translation, b: Translation) {
    a.createdAt >= b.createdAt
  }

  lemma NewestFirstTotal()
    ensures Seqs.Total(NewestFirst)
  {
  }

  /** GET: the rows passing the active filters, newest first. */
  function HandleGet(ps: Params, table: seq<Translation>): (r: seq<Translation>)
    ensures forall t :: t in r <==> t in table && Listed(ps, t)
    ensures multiset(r) == multiset(Seqs.Filter(table, t => Listed(ps, t)))
    ensures Seqs.SortedBy(r, NewestFirst)
  {
    var rows := Seqs.Filter(table, t => Listed(ps, t));
    assert forall t :: t in rows <==> t in table && Listed(ps, t);
    NewestFirstTotal();
    var sorted := Seqs.SortBy(rows, NewestFirst);
    assert forall t :: t in sorted <==> t in multiset(rows);
    sorted
  }

  /** The missing-only filter matches null alone: a row whose Chinese value is "" is never returned by it. */
  lemma MissingOnlySkipsEmptyChinese(ps: Params, table: seq<Translation>, t: Translation)
    requires MissingOnly(ps) && t.valueZh == Some("")
    ensures t !in HandleGet(ps, table)
  {
  }

  /** The answer to a POST. */
  datatype PostResponse = PostUnauthorized | Forbidden | MissingFields | Created(row: Object)
  {
    function Status(): nat {
      match this
      case PostUnauthorized => 401
      case Forbidden => 403
      case MissingFields => 400
      case Created(_) => 201
    }
  }

  /**
   POST: 401 without a session, then 403 without an `admin_roles` row, then
   400 when `key` or `value_en` is falsy; otherwise the body is inserted as sent.
   */
  function HandlePost(a: Auth, body: Object): (r: PostResponse)
    ensures r == PostUnauthorized <==> a.session == None
    ensures r == Forbidden <==> a.session.Some? && RoleRow(a, a.session.value.userId) == None
    ensures r.Created? <==> a.session.Some? && RoleRow(a, a.session.value.userId).Some?
                            && TruthyField(body, "key") && TruthyField(body, "value_en")
    ensures r.Created? ==> r.row == body
  {
    if a.session == None then PostUnauthorized
    else if RoleRow(a, a.session.value.userId) == None then Forbidden
    else if !TruthyField(body, "key") || !TruthyField(body, "value_en") then MissingFields
    else Created(body)
  }

  /** The answer to a PATCH: the id and the fields to write when the request is accepted. */
  datatype PatchResponse = PatchUnauthorized | MissingId | Updated(id: Json, updates: Object)
  {
    function Status(): nat {
      match this
      case PatchUnauthorized => 401
      case MissingId => 400
      case Updated(_, _) => 200
    }
  }

  /** PATCH: 401 without a session, 400 when `id` is falsy, otherwise every other field of the body is written. */
  function HandlePatch(a: Auth, body: Object): (r: PatchResponse)
    ensures r == PatchUnauthorized <==> a.session == None
    ensures r == MissingId <==> a.session.Some? && !TruthyField(body, "id")
    ensures r.Updated? ==> r.id == body["id"] && Truthy(r.id)
    ensures r.Updated? ==> "id" !in r.updates && forall k :: k in body && k != "id" ==> k in r.updates && r.updates[k] == body[k]
  {
    if a.session == None then PatchUnauthorized
    else if !TruthyField(body, "id") then MissingId
    else Updated(body["id"], Without(body, "id"))
  }

  /** PATCH does not look at `admin_roles`: any signed-in user may update a translation. */
  lemma PatchIgnoresRoles(a: Auth, body: Object, roles: AdminRoles, lookupError: bool)
    ensures HandlePatch(a, body) == HandlePatch(a.(roles := roles, roleLookupError := lookupError), body)
  {
  }

  /** A row whose `id` column holds `id`. */
  predicate HasId(row: Object, id: Json) {
    "id" in row && row["id"] == id
  }

  /** `.update(updates).eq("id", id)` on rows held as JSON objects. */
  function ApplyUpdate(rows: seq<Object>, id: Json, updates: Object): (r: seq<Object>)
    ensures |r| == |rows|
    ensures forall i :: 0 <= i < |rows| && !HasId(rows[i], id) ==> r[i] == rows[i]
    ensures forall i, k :: 0 <= i < |rows| && HasId(rows[i], id) && k in updates ==> k in r[i] && r[i][k] == updates[k]
    ensures forall i, k :: 0 <= i < |rows| && HasId(rows[i], id) && k in rows[i] && k !in updates ==> k in r[i] && r[i][k] == rows[i][k]
    ensures forall i :: 0 <= i < |rows| ==> r[i].Keys == rows[i].Keys + (if HasId(rows[i], id) then updates.Keys else {})
  {
    seq(|rows|, i requires 0 <= i < |rows| => if HasId(rows[i], id) then rows[i] + updates else rows[i])
  }

  /** An accepted PATCH leaves the id of the updated rows as it was, so they stay addressable by it. */
  lemma PatchKeepsRowIds(a: Auth, body: Object, rows: seq<Object>)
    requires HandlePatch(a, body).Updated?
    ensures var r := HandlePatch(a, body);
      forall i :: 0 <= i < |rows| && HasId(rows[i], r.id) ==> HasId(ApplyUpdate(rows, r.id, r.updates)[i], r.id)
  {
  }
}

=== FILE: types.dfy ===
/**
 The records of the site's data model: the `courses`, `translations` and
 `admin_roles` tables, the two UI languages, and the session the
 authentication backend hands out.
 */
module Types {

  /** A value that may be `null` (or `undefined`) in the source. */
  datatype Option<+T> = None | Some(value: T) {
    /** The value, or `default` when absent. */
    function GetOr(default: T): T {
      match this
      case Some(v) => v
      case None => default
    }
  }

  /** The outcome of an operation that either yields a value or fails with a message. */
  datatype Result<+T> = Success(value: T) | Failure(error: string)

  /** The two supported UI languages: "en" and "zh". */
  datatype Language = En | Zh

  /** The wire spelling of a language, as stored in localStorage. */
  function LanguageCode(l: Language): (code: string)
    ensures code == "en" || code == "zh"
    ensures l == En <==> code == "en"
  {
    match l
    case En => "en"
    case Zh => "zh"
  }

  /**
   An instant, as the database orders `timestamptz` columns. The rows carry
   ISO-8601 text; only the instant it denotes matters to the model.
   */
  type Timestamp = int

  /** A row of the `courses` table. */
  datatype Course = Course(
    id: string,
    slug: string,
    titleEn: string,
    titleZh: Option<string>,
    descriptionEn: string,
    descriptionZh: Option<string>,
    keyLearningEn: seq<string>,
    keyLearningZh: Option<seq<string>>,
    careerPathwaysEn: seq<string>,
    careerPathwaysZh: Option<seq<string>>,
    employmentOutlookEn: string,
    employmentOutlookZh: Option<string>,
    salaryRange: string,
    category: string,
    imageUrl: Option<string>,
    isPublished: bool,
    createdAt: Timestamp,
    updatedAt: Timestamp
  )

  /** The writable columns of the `courses` table. */
  datatype CourseColumn =
    | Slug | TitleEn | TitleZh | DescriptionEn | DescriptionZh
    | KeyLearningEn | KeyLearningZh | CareerPathwaysEn | CareerPathwaysZh
    | EmploymentOutlookEn | EmploymentOutlookZh | SalaryRange | Category | IsPublished
  {
    /** The column's name in the table and in request bodies. */
    function Name(): string {
      match this
      case Slug => "slug"
      case TitleEn => "title_en"
      case TitleZh => "title_zh"
      case DescriptionEn => "description_en"
      case DescriptionZh => "description_zh"
      case KeyLearningEn => "key_learning_en"
      case KeyLearningZh => "key_learning_zh"
      case CareerPathwaysEn => "career_pathways_en"
      case CareerPathwaysZh => "career_pathways_zh"
      case EmploymentOutlookEn => "employment_outlook_en"
      case EmploymentOutlookZh => "employment_outlook_zh"
      case SalaryRange => "salary_range"
      case Category => "category"
      case IsPublished => "is_published"
    }
  }

  /** A row of the `translations` table. */
  datatype Translation = Translation(
    id: string,
    key: string,
    valueEn: string,
    valueZh: Option<string>,
    category: Option<string>,
    createdAt: Timestamp,
    updatedAt: Timestamp
  )

  /** The `admin_roles` table: at most one role per user id. */
  type AdminRoles = map<string, string>

  /** The part of an authentication session the site reads: the user id. */
  datatype Session = Session(userId: string)
}

=== FILE: utils.dfy ===
/** The text helpers of src/lib/utils.ts: `truncate` and `slugify`. */
module Utils {
  import opened Text
  import Seqs

  /** Where `s.slice(0, end)` stops for a string of length `len`. */
  function SliceEnd(len: nat, end: int): (k: nat)
    ensures k <= len
    ensures 0 <= end <= len ==> k == end
  {
    if end < 0 then (if len + end < 0 then 0 else len + end)
    else if end > len then len
    else end
  }

  predicate EndsWith(s: string, suffix: string) {
    |suffix| <= |s| && s[|s| - |suffix|..] == suffix
  }

  /**
   `truncate(text, maxLength)`: text that fits is returned as is; otherwise
   the first `maxLength` characters, trimmed, followed by "...".
   */
  function Truncate(text: string, maxLength: int): (r: string)
    ensures |text| <= maxLength ==> r == text
    ensures |text| > maxLength ==> EndsWith(r, "...")
    ensures |text| > maxLength ==> |r| >= 3 && IsTrimOf(r[..|r| - 3], text[..SliceEnd(|text|, maxLength)])
    ensures |text| > maxLength && maxLength >= 0 ==>
      |r| <= maxLength + 3 && IsTrimOf(r[..|r| - 3], text[..maxLength])
  {
    if |text| <= maxLength then text
    else
      var kept := Trim(text[..SliceEnd(|text|, maxLength)]);
      TrimIsSlice(text[..SliceEnd(|text|, maxLength)]);
      assert (kept + "...")[..|kept|] == kept;
      kept + "..."
  }

  /**
   The example in the source's comment claims "Long tex..."; `trim` only
   removes the space the cut leaves behind, so the result keeps "text".
   */
  lemma TruncateExample()
    ensures Truncate("Long text here", 10) == "Long text..."
  {
    var text := "Long text here";
    var cut := text[..10];
    assert cut == "Long text ";
    assert !IsSpace(cut[0]);
    assert TrimStart(cut) == cut;
    assert IsSpace(cut[9]);
    assert cut[..9] == "Long text";
    assert !IsSpace(cut[..9][8]);
    assert TrimEnd(cut[..9]) == "Long text";
    assert TrimEnd(cut) == "Long text";
    assert Trim(cut) == "Long text";
  }

  // ---------------------------------------------------------------------
  // slugify: lower-case, trim, drop everything but [\w\s-], turn each run of
  // [\s_-] into one "-", then drop the hyphens at either end.

  /** The regular-expression class `\w`. */
  predicate IsWordChar(c: char) {
    IsAlnum(c) || c == '_'
  }

  /** The class `[\s_-]`, whose runs become a single hyphen. */
  predicate IsSeparator(c: char) {
    IsSpace(c) || c == '_' || c == '-'
  }

  /** The class `[\w\s-]`: what survives the removal step. */
  predicate IsKept(c: char) {
    IsWordChar(c) || IsSpace(c) || c == '-'
  }

  /** A character a slug may hold: a-z, 0-9 or "-". */
  predicate IsSlugChar(c: char) {
    IsAsciiLower(c) || IsDigit(c) || c == '-'
  }

  /** The ASCII letters and digits of `s`, in order. */
  function AlnumOf(s: string): string {
    if |s| == 0 then []
    else if IsAlnum(s[0]) then [s[0]] + AlnumOf(s[1..])
    else AlnumOf(s[1..])
  }

  predicate NoDoubleHyphen(s: string) {
    forall i :: 0 <= i < |s| - 1 ==> !(s[i] == '-' && s[i + 1] == '-')
  }

  /** A well-formed slug: slug characters only, no hyphen at either end, no "--". */
  predicate IsSlug(s: string) {
    && (forall i :: 0 <= i < |s| ==> IsSlugChar(s[i]))
    && (|s| > 0 ==> s[0] != '-' && s[|s| - 1] != '-')
    && NoDoubleHyphen(s)
  }

  /** `replace(/[^\w\s-]/g, "")`. */
  function RemoveDisallowed(s: string): string {
    Seqs.Filter(s, IsKept)
  }

  /** Drops the run of separators at the front of `s`. */
  function DropSeparators(s: string): string {
    s[LeadingRun(s, IsSeparator)..]
  }

  /** `replace(/[\s_-]+/g, "-")`: each maximal run of separators becomes one "-". */
  function CollapseSeparators(s: string): string
    decreases |s|
  {
    if |s| == 0 then ""
    else if IsSeparator(s[0]) then "-" + CollapseSeparators(DropSeparators(s))
    else [s[0]] + CollapseSeparators(s[1..])
  }

  predicate IsHyphen(c: char) {
    c == '-'
  }

  /** `replace(/^-+/, "")`. */
  function StripLeadingHyphens(s: string): string {
    s[LeadingRun(s, IsHyphen)..]
  }

  /** `replace(/-+$/, "")`. */
  function StripTrailingHyphens(s: string): string {
    s[..TrailingRunStart(s, IsHyphen)]
  }

  /** `replace(/^-+|-+$/g, "")`: removes the hyphens at both ends. */
  function StripHyphens(s: string): string {
    StripTrailingHyphens(StripLeadingHyphens(s))
  }

  /** `slugify(text)`. */
  function Slugify(text: string): (r: string)
    ensures IsSlug(r)
    ensures AlnumOf(r) == Lower(AlnumOf(text))
    ensures r == "" <==> AlnumOf(text) == ""
  {
    var lowered := Lower(text);
    var trimmed := Trim(lowered);
    var kept := RemoveDisallowed(trimmed);
    var collapsed := CollapseSeparators(kept);
    SlugifyFacts(text);
    StripHyphens(collapsed)
  }

  // ---------------------------------------------------------------------
  // What each step of slugify does to the letters and digits.

  lemma {:induction false} AlnumOfConcat(a: string, b: string)
    ensures AlnumOf(a + b) == AlnumOf(a) + AlnumOf(b)
  {
    if |a| > 0 {
      AlnumOfConcat(a[1..], b);
      assert (a + b)[0] == a[0];
      assert (a + b)[1..] == a[1..] + b;
      if IsAlnum(a[0]) {
        assert AlnumOf(a + b) == [a[0]] + AlnumOf(a[1..] + b);
      }
    } else {
      assert a + b == b;
    }
  }

  lemma {:induction false} AlnumOfNone(s: string)
    requires forall i :: 0 <= i < |s| ==> !IsAlnum(s[i])
    ensures AlnumOf(s) == ""
  {
    if |s| > 0 {
      AlnumOfNone(s[1..]);
    }
  }

  lemma {:induction false} AlnumOfLower(s: string)
    ensures AlnumOf(Lower(s)) == Lower(AlnumOf(s))
  {
    if |s| > 0 {
      AlnumOfLower(s[1..]);
      assert Lower(s)[1..] == Lower(s[1..]);
      if IsAlnum(s[0]) {
        assert Lower(AlnumOf(s)) == [LowerChar(s[0])] + Lower(AlnumOf(s[1..]));
      }
    }
  }

  /** Dropping a prefix without letters or digits keeps them all. */
  lemma {:induction false} AlnumOfDropPrefix(s: string, i: int)
    requires 0 <= i <= |s|
    requires forall k :: 0 <= k < i ==> !IsAlnum(s[k])
    ensures AlnumOf(s[i..]) == AlnumOf(s)
    decreases i
  {
    if i > 0 {
      var t := s[1..];
      assert forall k :: 0 <= k < i - 1 ==> t[k] == s[k + 1];
      AlnumOfDropPrefix(t, i - 1);
      assert t[i - 1..] == s[i..];
    }
  }

  /** Keeping a prefix that leaves out no letter or digit keeps them all. */
  lemma {:induction false} AlnumOfTakePrefix(s: string, j: int)
    requires 0 <= j <= |s|
    requires forall k :: j <= k < |s| ==> !IsAlnum(s[k])
    ensures AlnumOf(s[..j]) == AlnumOf(s)
    decreases |s|
  {
    if j == 0 {
      AlnumOfNone(s);
    } else {
      var t := s[1..];
      assert forall k :: j - 1 <= k < |t| ==> t[k] == s[k + 1];
      AlnumOfTakePrefix(t, j - 1);
      assert s[..j][0] == s[0] && s[..j][1..] == t[..j - 1];
    }
  }

  lemma AlnumOfTrim(s: string)
    ensures AlnumOf(Trim(s)) == AlnumOf(s)
  {
    AlnumOfTrimStart(s);
    AlnumOfTrimEnd(TrimStart(s));
  }

  lemma AlnumOfTrimStart(s: string)
    ensures AlnumOf(TrimStart(s)) == AlnumOf(s)
  {
    AlnumOfDropPrefix(s, |s| - |TrimStart(s)|);
  }

  lemma AlnumOfTrimEnd(s: string)
    ensures AlnumOf(TrimEnd(s)) == AlnumOf(s)
  {
    AlnumOfTakePrefix(s, |TrimEnd(s)|);
  }

  lemma {:induction false} AlnumOfRemoveDisallowed(s: string)
    ensures AlnumOf(RemoveDisallowed(s)) == AlnumOf(s)
  {
    if |s| > 0 {
      AlnumOfRemoveDisallowed(s[1..]);
      if IsKept(s[0]) {
        AlnumOfConcat([s[0]], RemoveDisallowed(s[1..]));
      }
    }
  }

  lemma {:induction false} AlnumOfCollapse(s: string)
    ensures AlnumOf(CollapseSeparators(s)) == AlnumOf(s)
    decreases |s|
  {
    if |s| > 0 {
      if IsSeparator(s[0]) {
        var rest := DropSeparators(s);
        AlnumOfCollapse(rest);
        assert AlnumOf(CollapseSeparators(s)) == AlnumOf(CollapseSeparators(rest)) by {
          AlnumOfConcat("-", CollapseSeparators(rest));
          assert AlnumOf("-") == "";
        }
        assert AlnumOf(rest) == AlnumOf(s) by {
          AlnumOfDropPrefix(s, |s| - |rest|);
        }
      } else {
        AlnumOfCollapse(s[1..]);
        assert AlnumOf(CollapseSeparators(s)) == AlnumOf([s[0]]) + AlnumOf(CollapseSeparators(s[1..])) by {
          AlnumOfConcat([s[0]], CollapseSeparators(s[1..]));
        }
      }
    }
  }

  lemma AlnumOfStrip(s: string)
    ensures AlnumOf(StripHyphens(s)) == AlnumOf(s)
  {
    AlnumOfStripLeading(s);
    AlnumOfStripTrailing(StripLeadingHyphens(s));
  }

  lemma AlnumOfStripLeading(s: string)
    ensures AlnumOf(StripLeadingHyphens(s)) == AlnumOf(s)
  {
    AlnumOfDropPrefix(s, |s| - |StripLeadingHyphens(s)|);
  }

  lemma AlnumOfStripTrailing(s: string)
    ensures AlnumOf(StripTrailingHyphens(s)) == AlnumOf(s)
  {
    AlnumOfTakePrefix(s, |StripTrailingHyphens(s)|);
  }

  // ---------------------------------------------------------------------
  // What each step of slugify does to the shape of the text.

  /** Lower-case text of the class `[\w\s-]`: what the first three steps leave. */
  predicate IsCleaned(s: string) {
    forall i :: 0 <= i < |s| ==> IsKept(s[i]) && !IsAsciiUpper(s[i])
  }

  /** Collapsing cleaned text leaves only slug characters. */
  lemma {:induction false} CollapseChars(s: string)
    requires IsCleaned(s)
    ensures forall i :: 0 <= i < |CollapseSeparators(s)| ==> IsSlugChar(CollapseSeparators(s)[i])
    decreases |s|
  {
    if |s| > 0 {
      var r := CollapseSeparators(s);
      if IsSeparator(s[0]) {
        var rest := DropSeparators(s);
        assert IsCleaned(rest) by {
          assert forall i :: 0 <= i < |rest| ==> rest[i] == s[i + |s| - |rest|];
        }
        CollapseChars(rest);
        assert r == "-" + CollapseSeparators(rest);
      } else {
        var tail := s[1..];
        assert IsCleaned(tail) by {
          assert forall i :: 0 <= i < |tail| ==> tail[i] == s[i + 1];
        }
        CollapseChars(tail);
        assert IsSlugChar(s[0]);
        assert r == [s[0]] + CollapseSeparators(tail);
      }
    }
  }

  /** Collapsing never leaves two hyphens side by side. */
  lemma {:induction false} CollapseNoDoubleHyphen(s: string)
    ensures NoDoubleHyphen(CollapseSeparators(s))
    decreases |s|
  {
    if |s| > 0 {
      var r := CollapseSeparators(s);
      if IsSeparator(s[0]) {
        var rest := DropSeparators(s);
        CollapseNoDoubleHyphen(rest);
        if |rest| > 0 {
          assert CollapseSeparators(rest)[0] == rest[0];
        }
        assert forall i :: 1 <= i < |r| ==> r[i] == CollapseSeparators(rest)[i - 1];
      } else {
        CollapseNoDoubleHyphen(s[1..]);
        assert forall i :: 1 <= i < |r| ==> r[i] == CollapseSeparators(s[1..])[i - 1];
      }
    }
  }

  /** Stripping keeps a contiguous slice, starting at the returned offset. */
  lemma StripHyphensSlice(s: string) returns (k: nat)
    ensures var r := StripHyphens(s);
      k + |r| <= |s| && r == s[k..k + |r|] && (|r| > 0 ==> r[0] != '-' && r[|r| - 1] != '-')
  {
    var t := StripLeadingHyphens(s);
    var r := StripTrailingHyphens(t);
    k := |s| - |t|;
    assert |r| > 0 ==> r[0] == t[0];
  }

  /** Stripping a hyphen-free-ended slice out of collapsed text keeps it a slug. */
  lemma StripCollapsedIsSlug(collapsed: string)
    requires forall i :: 0 <= i < |collapsed| ==> IsSlugChar(collapsed[i])
    requires NoDoubleHyphen(collapsed)
    ensures IsSlug(StripHyphens(collapsed))
  {
    var r := StripHyphens(collapsed);
    var k := StripHyphensSlice(collapsed);
    forall i | 0 <= i < |r|
      ensures IsSlugChar(r[i])
    {
      assert r[i] == collapsed[i + k];
    }
    forall i | 0 <= i < |r| - 1
      ensures !(r[i] == '-' && r[i + 1] == '-')
    {
      assert r[i] == collapsed[i + k] && r[i + 1] == collapsed[i + k + 1];
    }
  }

  /** The facts `Slugify`'s contract rests on, step by step. */
  lemma SlugifyFacts(text: string)
    ensures IsSlug(StripHyphens(CollapseSeparators(RemoveDisallowed(Trim(Lower(text))))))
    ensures AlnumOf(StripHyphens(CollapseSeparators(RemoveDisallowed(Trim(Lower(text))))))
            == Lower(AlnumOf(text))
    ensures StripHyphens(CollapseSeparators(RemoveDisallowed(Trim(Lower(text))))) == ""
            <==> AlnumOf(text) == ""
  {
    var r := StripHyphens(CollapseSeparators(RemoveDisallowed(Trim(Lower(text)))));
    SlugifyShape(text);
    SlugifyAlnum(text);
    if AlnumOf(text) == "" {
      SlugEmptyWithoutAlnum(r);
    }
  }

  /** The chain of replacements ends in a well-formed slug. */
  lemma SlugifyShape(text: string)
    ensures IsSlug(StripHyphens(CollapseSeparators(RemoveDisallowed(Trim(Lower(text))))))
  {
    var kept := RemoveDisallowed(Trim(Lower(text)));
    CleanupChars(text);
    CollapsedShape(kept);
    StripCollapsedIsSlug(CollapseSeparators(kept));
  }

  /** After the first three steps only lower-case characters of `[\w\s-]` remain. */
  lemma CleanupChars(text: string)
    ensures IsCleaned(RemoveDisallowed(Trim(Lower(text))))
  {
    var trimmed := Trim(Lower(text));
    var kept := RemoveDisallowed(trimmed);
    TrimKeepsNoUpper(Lower(text));
    forall i | 0 <= i < |kept|
      ensures IsKept(kept[i]) && !IsAsciiUpper(kept[i])
    {
      assert kept[i] in kept;
      var j :| 0 <= j < |trimmed| && trimmed[j] == kept[i];
    }
  }

  /** Collapsing such text leaves slug characters and no "--". */
  lemma CollapsedShape(kept: string)
    requires IsCleaned(kept)
    ensures forall i :: 0 <= i < |CollapseSeparators(kept)| ==> IsSlugChar(CollapseSeparators(kept)[i])
    ensures NoDoubleHyphen(CollapseSeparators(kept))
  {
    CollapseChars(kept);
    CollapseNoDoubleHyphen(kept);
  }

  /** Every step keeps the letters and digits, lower-cased by the first. */
  lemma SlugifyAlnum(text: string)
    ensures AlnumOf(StripHyphens(CollapseSeparators(RemoveDisallowed(Trim(Lower(text))))))
            == Lower(AlnumOf(text))
  {
    var lowered := Lower(text);
    var trimmed := Trim(lowered);
    var kept := RemoveDisallowed(trimmed);
    var collapsed := CollapseSeparators(kept);
    AlnumOfLower(text);
    AlnumOfTrim(lowered);
    AlnumOfRemoveDisallowed(trimmed);
    AlnumOfCollapse(kept);
    AlnumOfStrip(collapsed);
  }

  /** A slug without letters or digits is empty: it could only consist of hyphens. */
  lemma SlugEmptyWithoutAlnum(s: string)
    requires IsSlug(s)
    requires AlnumOf(s) == ""
    ensures s == ""
  {
  }

  /** Each separator replaced by a hyphen, everything else kept. */
  function HyphenateSeparators(s: string): (r: string)
    ensures |r| == |s|
  {
    seq(|s|, i requires 0 <= i < |s| => if IsSeparator(s[i]) then '-' else s[i])
  }

  /** No two separators stand side by side. */
  predicate LoneSeparators(s: string) {
    forall i :: 0 <= i < |s| - 1 ==> !(IsSeparator(s[i]) && IsSeparator(s[i + 1]))
  }

  /** Joining two such texts keeps the separators alone unless both sides of the seam are separators. */
  lemma LoneSeparatorsConcat(a: string, b: string)
    requires LoneSeparators(a) && LoneSeparators(b)
    requires |a| > 0 && |b| > 0 && !(IsSeparator(a[|a| - 1]) && IsSeparator(b[0]))
    ensures LoneSeparators(a + b)
  {
    var s := a + b;
    forall i | 0 <= i < |s| - 1
      ensures !(IsSeparator(s[i]) && IsSeparator(s[i + 1]))
    {
      if i + 1 < |a| {
        assert s[i] == a[i] && s[i + 1] == a[i + 1];
      } else if i + 1 == |a| {
        assert s[i] == a[|a| - 1] && s[i + 1] == b[0];
      } else {
        assert s[i] == b[i - |a|] && s[i + 1] == b[i + 1 - |a|];
      }
    }
  }

  /** Collapsing text whose separators stand alone just turns each into a hyphen. */
  lemma {:induction false} CollapseLoneSeparators(s: string)
    requires LoneSeparators(s)
    ensures CollapseSeparators(s) == HyphenateSeparators(s)
    decreases |s|
  {
    if |s| > 0 {
      var tail := s[1..];
      assert forall i :: 0 <= i < |tail| ==> tail[i] == s[i + 1];
      CollapseLoneSeparators(tail);
      assert HyphenateSeparators(s) == [HyphenateSeparators(s)[0]] + HyphenateSeparators(tail);
      if IsSeparator(s[0]) {
        assert |tail| > 0 ==> !IsSeparator(tail[0]);
        assert DropSeparators(s) == DropSeparators(tail) == tail;
      }
    }
  }

  /** Collapsing leaves text that has no spaces, no underscores and no "--" unchanged. */
  lemma CollapseFixesSlug(s: string)
    requires forall i :: 0 <= i < |s| ==> IsSlugChar(s[i])
    requires NoDoubleHyphen(s)
    ensures CollapseSeparators(s) == s
  {
    assert forall i :: 0 <= i < |s| ==> (IsSeparator(s[i]) <==> s[i] == '-');
    assert LoneSeparators(s);
    CollapseLoneSeparators(s);
  }

  /** The first three steps of `slugify` leave a slug unchanged. */
  lemma CleanupFixesSlug(u: string)
    requires IsSlug(u)
    ensures RemoveDisallowed(Trim(Lower(u))) == u
  {
    assert HasNoUpper(u);
    LowerFixesLowerCase(u);
    TrimFixesTrimmed(u);
    assert forall i :: 0 <= i < |u| ==> IsKept(u[i]);
    Seqs.FilterKeepsAllIff(u, IsKept);
  }

  /** Stripping leaves text that neither starts nor ends with a hyphen unchanged. */
  lemma StripFixesUnhyphenated(u: string)
    requires |u| > 0 ==> u[0] != '-' && u[|u| - 1] != '-'
    ensures StripHyphens(u) == u
  {
    assert StripLeadingHyphens(u) == u;
    assert StripTrailingHyphens(u) == u;
  }

  /** A slug slugifies to itself. */
  lemma SlugifyFixesSlug(u: string)
    requires IsSlug(u)
    ensures Slugify(u) == u
  {
    CleanupFixesSlug(u);
    CollapseFixesSlug(u);
    StripFixesUnhyphenated(u);
  }

  /** `slugify` is idempotent. */
  lemma SlugifyIdempotent(text: string)
    ensures Slugify(Slugify(text)) == Slugify(text)
  {
    SlugifyFixesSlug(Slugify(text));
  }

  /** Separator-to-hyphen replacement works character by character. */
  lemma HyphenateConcat(a: string, b: string)
    ensures HyphenateSeparators(a + b) == HyphenateSeparators(a) + HyphenateSeparators(b)
  {
    assert forall i :: 0 <= i < |a| ==> (a + b)[i] == a[i];
    assert forall i :: |a| <= i < |a| + |b| ==> (a + b)[i] == b[i - |a|];
  }

  /** Every character of `w` is an ASCII letter or digit, and there is at least one. */
  predicate IsAlnumWord(w: string) {
    |w| > 0 && forall i :: 0 <= i < |w| ==> IsAlnum(w[i])
  }

  /** Three alphanumeric words joined by single spaces are spaced words. */
  lemma ThreeWordsSpaced(w1: string, w2: string, w3: string)
    requires IsAlnumWord(w1) && IsAlnumWord(w2) && IsAlnumWord(w3)
    ensures IsSpacedWords(w1 + " " + w2 + " " + w3)
  {
    assert LoneSeparators(w1) && LoneSeparators(w2) && LoneSeparators(w3) && LoneSeparators(" ");
    LoneSeparatorsConcat(w1, " ");
    LoneSeparatorsConcat(w1 + " ", w2);
    LoneSeparatorsConcat(w1 + " " + w2, " ");
    LoneSeparatorsConcat(w1 + " " + w2 + " ", w3);
    var t := w1 + " " + w2 + " " + w3;
    assert t[0] == w1[0] && t[|t| - 1] == w3[|w3| - 1];
  }

  /** Lowering three space-separated words lowers each word. */
  lemma LowerThreeWords(w1: string, w2: string, w3: string)
    ensures Lower(w1 + " " + w2 + " " + w3) == Lower(w1) + " " + Lower(w2) + " " + Lower(w3)
  {
    LowerConcat(w1, " ");
    LowerConcat(w1 + " ", w2);
    LowerConcat(w1 + " " + w2, " ");
    LowerConcat(w1 + " " + w2 + " ", w3);
    assert Lower(" ") == " ";
  }

  /** Hyphenating three space-separated words joins them with hyphens. */
  lemma HyphenateThreeWords(w1: string, w2: string, w3: string)
    requires IsAlnumWord(w1) && IsAlnumWord(w2) && IsAlnumWord(w3)
    ensures HyphenateSeparators(w1 + " " + w2 + " " + w3) == w1 + "-" + w2 + "-" + w3
  {
    HyphenateConcat(w1, " ");
    HyphenateConcat(w1 + " ", w2);
    HyphenateConcat(w1 + " " + w2, " ");
    HyphenateConcat(w1 + " " + w2 + " ", w3);
    assert HyphenateSeparators(" ") == "-";
    assert HyphenateSeparators(w1) == w1 && HyphenateSeparators(w2) == w2 && HyphenateSeparators(w3) == w3;
  }

  /** Alphanumeric words separated by single spaces, with no space at either end. */
  predicate IsSpacedWords(t: string) {
    && |t| > 0
    && (forall i :: 0 <= i < |t| ==> IsAlnum(t[i]) || t[i] == ' ')
    && t[0] != ' ' && t[|t| - 1] != ' '
    && LoneSeparators(t)
  }

  /** Lowering keeps the shape of spaced words. */
  lemma LowerSpacedWords(t: string)
    requires IsSpacedWords(t)
    ensures IsSpacedWords(Lower(t))
  {
    var l := Lower(t);
    assert forall i :: 0 <= i < |t| ==> (IsSeparator(l[i]) <==> IsSeparator(t[i]));
  }

  /** Text of words separated by single spaces slugifies to its lower-cased words joined by hyphens. */
  lemma SlugifySpacedWords(t: string)
    requires IsSpacedWords(t)
    ensures Slugify(t) == HyphenateSeparators(Lower(t))
  {
    LowerSpacedWords(t);
    SpacedWordsCleanup(Lower(t));
    SpacedWordsCollapse(Lower(t));
  }

  /** Trimming and dropping disallowed characters keep spaced words. */
  lemma SpacedWordsCleanup(l: string)
    requires IsSpacedWords(l)
    ensures RemoveDisallowed(Trim(l)) == l
  {
    TrimFixesTrimmed(l);
    assert forall i :: 0 <= i < |l| ==> IsKept(l[i]);
    Seqs.FilterKeepsAllIff(l, IsKept);
  }

  /** Collapsing spaced words hyphenates them, and stripping then has nothing to remove. */
  lemma SpacedWordsCollapse(l: string)
    requires IsSpacedWords(l)
    ensures StripHyphens(CollapseSeparators(l)) == HyphenateSeparators(l)
  {
    var h := HyphenateSeparators(l);
    assert CollapseSeparators(l) == h by {
      CollapseLoneSeparators(l);
    }
    HyphenateKeepsEnds(l);
  }

  /** Hyphenating spaced words leaves nothing for stripping to remove. */
  lemma HyphenateKeepsEnds(l: string)
    requires IsSpacedWords(l)
    ensures StripHyphens(HyphenateSeparators(l)) == HyphenateSeparators(l)
  {
    var h := HyphenateSeparators(l);
    assert IsAlnum(l[0]) && IsAlnum(l[|l| - 1]);
    assert h[0] == l[0] && h[|h| - 1] == l[|l| - 1];
    StripFixesUnhyphenated(h);
  }

  /** The worked example: the title "Data Analytics Program", given word by word, and its slug. */
  lemma SlugifyExample(w1: string, w2: string, w3: string)
    requires w1 == "Data" && w2 == "Analytics" && w3 == "Program"
    ensures Slugify(w1 + " " + w2 + " " + w3) == "data-analytics-program"
  {
    ExampleWords(w1, w2, w3);
    SlugifySpacedWords(w1 + " " + w2 + " " + w3);
  }

  lemma ExampleWords(w1: string, w2: string, w3: string)
    requires w1 == "Data" && w2 == "Analytics" && w3 == "Program"
    ensures IsSpacedWords(w1 + " " + w2 + " " + w3)
    ensures HyphenateSeparators(Lower(w1 + " " + w2 + " " + w3)) == "data-analytics-program"
  {
    assert IsAlnumWord(w1) && IsAlnumWord(w2) && IsAlnumWord(w3);
    ThreeWordsSpaced(w1, w2, w3);
    ExampleLowered(w1, w2, w3);
  }

  lemma ExampleLowered(w1: string, w2: string, w3: string)
    requires w1 == "Data" && w2 == "Analytics" && w3 == "Program"
    ensures HyphenateSeparators(Lower(w1 + " " + w2 + " " + w3)) == "data-analytics-program"
  {
    LowerThreeWords(w1, w2, w3);
    ExampleWordsLowered(w1, w2, w3);
    ExampleHyphenated();
  }

  lemma ExampleHyphenated()
    ensures HyphenateSeparators("data" + " " + "analytics" + " " + "program") == "data-analytics-program"
  {
    assert IsAlnumWord("data") && IsAlnumWord("analytics") && IsAlnumWord("program");
    HyphenateThreeWords("data", "analytics", "program");
    assert "data" + "-" + "analytics" + "-" + "program" == "data-analytics-program";
  }

  lemma ExampleWordsLowered(w1: string, w2: string, w3: string)
    requires w1 == "Data" && w2 == "Analytics" && w3 == "Program"
    ensures Lower(w1) == "data" && Lower(w2) == "analytics" && Lower(w3) == "program"
  {
    assert Lower(w1) == "data";
    assert Lower(w2) == "analytics";
    assert Lower(w3) == "program";
  }

  /** Text without ASCII letters or digits has the empty slug. */
  lemma SlugifyWithoutAlnum(text: string)
    requires forall i :: 0 <= i < |text| ==> !IsAlnum(text[i])
    ensures Slugify(text) == ""
  {
    AlnumOfNone(text);
  }

  /** A Chinese course title has the empty slug. */
  lemma SlugifyChineseTitle()
    ensures Slugify("数据分析课程") == ""
  {
    var title := "数据分析课程";
    ChineseTitleChars(title);
    SlugifyWithoutAlnum(title);
  }

  lemma ChineseTitleChars(title: string)
    requires title == "数据分析课程"
    ensures forall i :: 0 <= i < |title| ==> !IsAlnum(title[i])
  {
  }
}
